=== FILE: README.md ===
# study-platform: progress and achievement logic in Dafny

This project models the domain layer of the study-platform backend, a Go
learning platform. It covers:

- how a learner completes lessons, earns experience (XP) and levels;
- how their completion percentage of a course is computed;
- how an enrollment is flipped to "completed";
- when a certificate is issued;
- who may add lessons;
- the request gates in front of the handlers: bearer-token authentication,
  the role allow-list and the enrollment gate;
- registration input validation.

The PostgreSQL tables are one immutable record, `Store.Db`, holding one map
per table:

- tables with a UNIQUE pair constraint are keyed by that pair:
  - lesson progress by (user, lesson);
  - enrollments by (user, course);
  - certificates by (user, course);
- the other tables are keyed by id.

A map cannot hold two rows under one key, so the uniqueness constraints are
structural. Every repository call takes `down: bool`, which stands for a
failure of the database at that call. A use case receives `faults: set<Site>`,
the set of call sites that fail. This is how the model states which errors
the code passes on and which it discards.

Each use case is a pure step `(Db, arguments) -> Step(outcome, Db')`. Go
errors are the `Types.Error` datatype:

- `Wrapped` is `fmt.Errorf("...: %w")`;
- `IsNoRows` follows the wrap chain as `errors.Is` does;
- `Message` is `err.Error()`.

`Store.Valid` collects the invariants the domain layer keeps:

- the schema's uniqueness and defaults;
- experience is non-negative and fits its 32-bit INT column;
- the stored level is always the one derived from the stored XP;
- every progress row belongs to an existing lesson of the course it records;
- a certificate exists only for a completed enrollment;
- ids are fresh.

Every writing use case is proved to preserve `Valid` except the admin's
enrollment delete. The certificates table references only users and courses.
So a successful `DeleteEnrollment` keeps `Valid` when no certificate rests on
the deleted enrollment (`EnrollmentUseCase.DeleteEnrollmentValid`). It breaks
the certificate rule when one does
(`EnrollmentUseCase.DeleteEnrollmentOrphansCertificate`).

Modules follow the Go packages:

| file | module | models |
|---|---|---|
| `types.dfy` | `Types` | ids, errors, results, failure sites |
| `models.dfy` | `Models` | the model structs and the role and status constants |
| `level.dfy` | `Level` | the experience award and `calculateLevel` |
| `strconv.dfy` | `Strconv` | `strconv.Atoi` / `Itoa` on 64-bit `int` |
| `store.dfy` | `Store` | the schema and the repository calls |
| `lesson_progress_service.dfy` | `LessonProgressService` | find-then-create-or-update of a progress row |
| `enrollment_service.dfy` | `EnrollmentService` | `IsUserEnrolled`, `MarkAsCompleted` |
| `lesson_progress_usecase.dfy` | `LessonProgressUseCase` | the completion workflow, the percentage and the flip |
| `enrollment_usecase.dfy` | `EnrollmentUseCase` | `EnrollStudent`, `DeleteEnrollment` |
| `certificate_usecase.dfy` | `CertificateUseCase` | `CreateCertificate`, `Generate` |
| `lesson_usecase.dfy` | `LessonUseCase` | `CreateLesson`, ownership, lessons for students |
| `auth_middleware.dfy` | `AuthMiddleware` | the authentication, role and enrollment gates |
| `user_usecase.dfy` | `UserUseCase` | request validation, `CreateUser`, `Login`, `ToUserResponses` |

### Behaviour of the code worth knowing

- Completing a lesson never changes the enrollment. Only `GetCourseProgress`
  flips it, that is, when progress is queried.
  `LessonProgressUseCase.MarkLessonCompleted` states that it touches only
  users and progress.
- Completion is not atomic:
  - the XP write comes first;
  - its error is discarded;
  - it is not undone when the completion write fails
    (`LessonProgressUseCase.XpKeptWhenCompletionWriteFails`).
- Experience is a 32-bit INT column. Once an award would pass 2147483647,
  the XP write fails and its error is discarded. Completions keep succeeding
  while experience stops growing
  (`LessonProgressUseCase.XpFrozenAtColumnLimit`).
- An insert that hits the (user, lesson) uniqueness constraint returns the
  constraint error. For example, this happens after the progress lookup
  failed (`LessonProgressService.LookupErrorTakesCreatePath`).
- Progress is reported as a percentage in [0, 100].
- A name or surname longer than 52 characters is refused, unless the excess
  is only spaces. PostgreSQL then cuts those spaces off, so the stored row
  differs from the user the registration returns (`Store.TrailingSpacesCut`).

## Model

| member | source | states |
|---|---|---|
| Level.CalculateLevel | backend/internal/domain/usecase/lesson_progress_usecase.go:40-42 | for xp >= 0 the level is at least 1 and xp lies in the level's hundred, `[(level-1)*100, level*100)`, with Go's truncating division; a negative xp gives at most level 1 |
| Level.CalculateLevelMonotone | backend/internal/domain/usecase/lesson_progress_usecase.go:40-42 | more experience never means a lower level, negative values included |
| Level.DefaultsAgree | backend/internal/app/app.go:78-79 | the level derived from the default xp 0 is the default level 1; 99 gives 1, 100 gives 2, 250 gives 3 |
| Level.AwardRaisesLevelByAtMostOne | backend/internal/domain/usecase/lesson_progress_usecase.go:74-83 | one +10 award keeps the level or raises it by exactly one |
| Strconv.Atoi | backend/internal/api/middlewares/auth_middleware.go:80 | accepts only an optional sign followed by at least one digit, with a value within 64 bits, so a lone sign is rejected; an unsigned or signed digit string is accepted iff its value fits, and then parses to that value, negated after "-"; the empty string is rejected |
| Strconv.AtoiItoa | backend/internal/api/middlewares/auth_middleware.go:80 | every 64-bit integer, formatted and parsed again, comes back unchanged |
| Store.Empty | backend/internal/app/app.go:69-134 | the freshly migrated, empty database satisfies every store invariant |
| Store.FindLesson | backend/internal/domain/repositories/lesson_repository.go:41-61 | succeeds exactly for an existing lesson without database failure; a missing lesson is an error that is no-rows under the wrap |
| Store.LessonsOfCourse | backend/internal/domain/repositories/lesson_repository.go:63-92 | returns exactly the lessons whose course is the given one, unchanged |
| Store.InsertLesson | backend/internal/domain/repositories/lesson_repository.go:27-39 | the new lesson gets an id no existing lesson has; exactly that key is added, every existing lesson is unchanged, and nothing but the lesson table and the counter changes |
| Store.DeleteLesson | backend/internal/app/app.go:106 | the lesson disappears, and its progress rows with it (ON DELETE CASCADE); every other lesson and progress row stays as it was, and users, courses, enrollments, certificates and the counter are untouched |
| Store.UpdateLesson | backend/internal/domain/repositories/lesson_repository.go:94-105 | only title, content and video URL of the lesson with that id change; every other lesson is unchanged, no lesson changes course, and no lesson appears or disappears |
| Store.FindCourse | backend/internal/domain/repositories/course_repository.go:42-54 | succeeds exactly for an existing course; every error reads "course not found: ...", and a missing course is no-rows |
| Store.FindUser | backend/internal/domain/repositories/user_repository.go:45-56 | succeeds exactly for an existing user and returns the stored row |
| Store.FindUserByEmail | backend/internal/domain/repositories/user_repository.go:58-69 | finds a user with that email when one exists; the level and xp it returns are zero because they are not selected; the error is infrastructure or no-rows |
| Store.UpdateXpAndLevel | backend/internal/domain/repositories/user_repository.go:110-119 | succeeds iff the database does not fail and xp and level fit the 32-bit INT columns (app.go:78-79); then writes exactly xp and level of the row with the user's id; a missing row is not an error |
| Store.InsertUser | backend/internal/domain/repositories/user_repository.go:34-43 | succeeds iff name, surname and password are accepted by their VARCHAR(52), VARCHAR(52) and VARCHAR(255) columns (app.go:73-76), that is, anything past the width is spaces, and username and email are both unused; a refused value is a "too long" error before uniqueness; the stored row has the excess trailing spaces cut, a fresh id and the column defaults xp 0, level 1 and the creation time, old rows are unchanged, and the returned user keeps the uncut strings and only gains the id |
| Store.StoreVarchar | backend/internal/app/app.go:73-76 | an accepted string is stored with at most the column's width, as a prefix of the input that drops only spaces, and unchanged when it already fits |
| Store.TrimTrailingSpaces | backend/internal/app/app.go:73-76 | the result is a prefix of the input that does not end in a space, and everything dropped is a space |
| Store.FitsVarcharIffTrimmedFits | backend/internal/app/app.go:73-76 | a string is accepted by VARCHAR(n) exactly when it has at most n characters once its trailing spaces are removed |
| Store.StoreVarcharStable | backend/internal/app/app.go:73-76 | a stored value is accepted again and stored unchanged |
| Store.TrailingSpacesCut | backend/internal/app/app.go:73 | "a" followed by 52 spaces is accepted by VARCHAR(52) and stored as "a" followed by 51 spaces; 52 letters followed by "b" are refused |
| Store.StoredColumns | backend/internal/app/app.go:73-76 | the stored user row has name, surname and password within their widths, each a prefix of the given one, and every other field unchanged |
| Store.FindProgress | backend/internal/domain/repositories/lesson_progress_repository.go:44-70 | a missing (user, lesson) row is "none" with no error; a present one is returned as stored |
| Store.ProgressOfCourse | backend/internal/domain/repositories/lesson_progress_repository.go:85-114 | returns exactly the rows whose user and course columns match, unchanged |
| Store.InsertProgress | backend/internal/domain/repositories/lesson_progress_repository.go:26-42 | rejected by the (user, lesson) uniqueness constraint iff a row for the pair exists; otherwise exactly that key is added, under an id no other row has, and existing rows are unchanged |
| Store.UpdateProgress | backend/internal/domain/repositories/lesson_progress_repository.go:73-83 | no row appears or disappears; each row keeps id, user, lesson and course; only the row with the given id gets the new completion flag and time |
| Store.FindEnrollment | backend/internal/domain/repositories/enrollment_repository.go:57-71 | succeeds exactly for an existing (user, course) enrollment; its error is no-rows exactly when the database did not fail |
| Store.InsertEnrollment | backend/internal/domain/repositories/enrollment_repository.go:30-40 | succeeds iff the pair has no enrollment; exactly that key is added, under an id no other enrollment has, with status "active" whatever the record says; existing enrollments are unchanged |
| Store.UpdateEnrollmentStatus | backend/internal/domain/repositories/enrollment_repository.go:130-143 | succeeds iff some enrollment has the id; exactly the rows with that id get the new status |
| Store.DeleteEnrollment | backend/internal/domain/repositories/enrollment_repository.go:145-149 | exactly the enrollments with that id disappear, an unknown id is not an error, and no other table changes: certificates are not cascaded |
| Store.FindCertificate | backend/internal/domain/repositories/certificate_repository.go:79-90 | succeeds exactly for an existing (user, course) certificate; the error is no-rows exactly when the database did not fail |
| Store.InsertCertificate | backend/internal/domain/repositories/certificate_repository.go:27-39 | succeeds iff the pair has no certificate (uniqueness on (user, course)); exactly that key is added, under an id no other certificate has; existing certificates are unchanged |
| LessonProgressService.MarkLessonCompleted | backend/internal/domain/services/lesson_progress_service.go:26-47 | on success the (user, lesson) row is completed: created with the given user, lesson and course when absent, otherwise the existing row with only flag and time changed; the keys grow by at most that pair; a failure changes nothing |
| LessonProgressService.MarkLessonCompletedFrame | backend/internal/domain/services/lesson_progress_service.go:26-47 | rows of every other (user, lesson) pair are left as they were |
| LessonProgressService.MarkLessonCompletedKeepsKeyed | backend/internal/domain/services/lesson_progress_service.go:32-46 | rows stay under their own key with distinct ids below the counter, so no second row for a pair is created |
| LessonProgressService.LookupErrorTakesCreatePath | backend/internal/domain/services/lesson_progress_service.go:27 | with the lookup failing and a row present, the swallowed error leads to the create path and the uniqueness constraint rejects it |
| LessonProgressService.CompleteExisting | backend/internal/domain/services/lesson_progress_service.go:43-46 | with a row present and no failure, completing succeeds and rewrites only that row's flag and time; every other row, table and the counter stay as they were |
| LessonProgressService.MarkTwice | backend/internal/domain/services/lesson_progress_service.go:43-46 | completing the same lesson twice leaves one completed row whose only change is the completion time |
| EnrollmentService.IsUserEnrolled | backend/internal/domain/services/enrollment_service.go:42-52 | without database failure the answer is whether the enrollment exists (not found is `false`, no error); a database failure is passed on and is not no-rows |
| EnrollmentService.MarkAsCompleted | backend/internal/domain/services/enrollment_service.go:54-60 | succeeds iff the enrollment exists and neither call fails; then its status is exactly "completed" and only enrollments change; a missing one is no-rows and a failure changes nothing |
| EnrollmentService.MarkAsCompletedFrame | backend/internal/domain/services/enrollment_service.go:59 | every other enrollment is untouched and a completed status stays completed |
| EnrollmentService.MarkAsCompletedIdempotent | backend/internal/domain/services/enrollment_service.go:59 | flipping an already completed enrollment succeeds and changes nothing |
| EnrollmentService.MarkAsCompletedValid | backend/internal/domain/services/enrollment_service.go:54-60 | the flip keeps every store invariant |
| LessonProgressUseCase.MarkLessonCompleted | backend/internal/domain/usecase/lesson_progress_usecase.go:45-89 | fails without any write unless every check passes in order (lesson found, in the course, progress readable, not completed, user found), with the source's messages; then XP is +10 with the derived level, or unchanged when the XP write fails or the award would leave the INT column; success means the lesson is completed; enrollments and certificates are never touched; with no failure it succeeds iff the checks pass |
| LessonProgressUseCase.MarkLessonCompletedValid | backend/internal/domain/usecase/lesson_progress_usecase.go:45-89 | completion keeps every store invariant: level matches XP, the row belongs to a lesson of its course, ids stay distinct |
| LessonProgressUseCase.AwardKeepsUsersValid | backend/internal/domain/usecase/lesson_progress_usecase.go:82-85 | an award that fits the INT column keeps experience non-negative and in range, the level derived from it, and names unique |
| LessonProgressUseCase.ServiceKeepsValid | backend/internal/domain/usecase/lesson_progress_usecase.go:61-88 | after the course-match check, the completion write keeps every store invariant |
| LessonProgressUseCase.CompleteTwice | backend/internal/domain/usecase/lesson_progress_usecase.go:70-72 | a second completion of the same lesson fails with "lesson is already completed" and changes nothing, so XP is awarded once |
| LessonProgressUseCase.XpKeptWhenCompletionWriteFails | backend/internal/domain/usecase/lesson_progress_usecase.go:82-88 | when the XP write can store the award and the completion write fails, the call fails, yet the +10 XP stays written |
| LessonProgressUseCase.XpWriteErrorIgnored | backend/internal/domain/usecase/lesson_progress_usecase.go:85 | a failing XP write is discarded: the call succeeds, the lesson is completed, XP is unchanged |
| LessonProgressUseCase.XpFrozenAtColumnLimit | backend/internal/domain/usecase/lesson_progress_usecase.go:82-88 | once +10 would pass the INT maximum, the completion still succeeds and the lesson is completed, but experience and level stay as they were |
| LessonProgressUseCase.CountCompleted | backend/internal/domain/usecase/lesson_progress_usecase.go:117-122 | the loop counts exactly the rows with the completed flag |
| LessonProgressUseCase.Percent | backend/internal/domain/usecase/lesson_progress_usecase.go:128 | the percentage times the total is 100 times the count; it lies in 0..100 when count <= total, and is 100 exactly when count equals total |
| LessonProgressUseCase.GetCourseProgress | backend/internal/domain/usecase/lesson_progress_usecase.go:91-129 | fails exactly when a query fails, then writing nothing; no lessons gives 0 with nothing written; otherwise the result is the percentage of completed (user, course) rows; the store changes only when every lesson's row is completed, and then it is exactly the flip's result |
| LessonProgressUseCase.SecondComponentsCount | backend/internal/domain/usecase/lesson_progress_usecase.go:117-122 | among keys with the same user, the lesson ids are as many as the keys |
| LessonProgressUseCase.CompletedRowsAreCompletedLessons | backend/internal/app/app.go:112 | under the invariants, the completed rows of (user, course) are as many as the completed lessons the course has now, hence never more than its lessons |
| LessonProgressUseCase.GetCourseProgressBounded | backend/internal/domain/usecase/lesson_progress_usecase.go:106-128 | the result stays within 0..100 and is 100 exactly when the course has lessons and all of them are completed |
| LessonProgressUseCase.FlipOnlyWhenAllDone | backend/internal/domain/usecase/lesson_progress_usecase.go:124-126 | the enrollment changes only when every current lesson is completed, and then, with no failure, it becomes "completed" |
| LessonProgressUseCase.FlipErrorIgnored | backend/internal/domain/usecase/lesson_progress_usecase.go:125 | without an enrollment, the failing flip is discarded: 100% is returned and nothing is written |
| LessonProgressUseCase.GetCourseProgressValid | backend/internal/domain/usecase/lesson_progress_usecase.go:91-129 | reading the progress keeps every store invariant |
| LessonProgressUseCase.FlipIsStable | backend/internal/domain/usecase/lesson_progress_usecase.go:124-126 | a completed enrollment stays completed through any later progress query |
| EnrollmentUseCase.EnrollStudent | backend/internal/domain/usecase/enrollment_usecase.go:34-67 | succeeds iff the course exists, the user is not its teacher, no enrollment exists and no call fails; then exactly one "active" enrollment is added; each refusal has the source's message, in the order course, teacher, duplicate; a failure writes nothing |
| EnrollmentUseCase.EnrollStudentValid | backend/internal/domain/usecase/enrollment_usecase.go:59-66 | enrolling keeps every store invariant |
| EnrollmentUseCase.EnrollTwice | backend/internal/domain/usecase/enrollment_usecase.go:49-55 | enrolling the same student again fails with "student already enrolled in this course" and changes nothing |
| EnrollmentUseCase.EnrollStudentKeepsNoSelfEnrollment | backend/internal/domain/usecase/enrollment_usecase.go:44-46 | no teacher ever becomes enrolled in a course they teach |
| EnrollmentUseCase.StatusIsMonotone | backend/internal/domain/services/enrollment_service.go:59 | new enrollments arrive "active", existing ones are untouched by enrolling, and the flip never turns "completed" back |
| EnrollmentUseCase.DeleteEnrollment | backend/internal/domain/usecase/enrollment_usecase.go:86-88 | succeeds iff the delete does not fail; then exactly the enrollments with that id are gone and every other table is unchanged; a failure writes nothing |
| EnrollmentUseCase.DeleteEnrollmentValid | backend/internal/app/app.go:128-134 | deleting an enrollment that no certificate rests on keeps every store invariant |
| EnrollmentUseCase.DeleteEnrollmentOrphansCertificate | backend/internal/app/app.go:128-134 | deleting an enrollment that has a certificate succeeds and leaves the certificate without an enrollment, breaking the rule that certificates exist only for completed enrollments |
| CertificateUseCase.CreateCertificate | backend/internal/domain/usecase/certificate_usecase.go:37-67 | succeeds only for a completed enrollment; a non-completed one gives "course not completed" before any certificate lookup; an existing certificate is returned unchanged with nothing written; otherwise one certificate with the user, course and issue time is inserted; a failure writes nothing |
| CertificateUseCase.CreateCertificateIdempotent | backend/internal/domain/usecase/certificate_usecase.go:53-56 | asking again returns the same certificate, with its first issue time, and writes nothing |
| CertificateUseCase.CreateCertificateValid | backend/internal/domain/usecase/certificate_usecase.go:49-66 | issuing keeps every store invariant, including "certificates only for completed enrollments" |
| CertificateUseCase.Generate | backend/internal/domain/usecase/certificate_usecase.go:85-102 | the renderer receives the stored user, the stored course and the issued certificate's issue time (the first one when it already existed); a failed issuance is returned as it is |
| CertificateUseCase.GenerateFailsBeforeLookups | backend/internal/domain/usecase/certificate_usecase.go:86-89 | when issuance fails, whether the user and course lookups would fail makes no difference |
| CertificateUseCase.GenerateKeepsIssuedCertificate | backend/internal/domain/usecase/certificate_usecase.go:86-94 | a certificate issued before a failing user lookup stays issued |
| LessonUseCase.IsCourseOwnedByTeacher | backend/internal/domain/usecase/lesson_usecase.go:92-99 | true iff the course's teacher is the user; a missing course is an error |
| LessonUseCase.CreateLesson | backend/internal/domain/usecase/lesson_usecase.go:32-60 | succeeds iff the user teaches the course, the title is non-empty and no call fails; the lesson carries the input's title, content, course and video URL; a lookup error is wrapped "failed to verify course ownership"; a failure writes nothing |
| LessonUseCase.OwnershipBeforeTitle | backend/internal/domain/usecase/lesson_usecase.go:37-43 | a non-owner with an empty title is refused for ownership, not for the title |
| LessonUseCase.CreateLessonValid | backend/internal/domain/usecase/lesson_usecase.go:45-59 | adding a lesson keeps every store invariant |
| LessonUseCase.GetLessonsForStudent | backend/internal/domain/usecase/lesson_usecase.go:80-90 | returns every lesson of the course |
| LessonUseCase.LessonsIgnoreEnrollment | backend/internal/domain/usecase/lesson_usecase.go:80-90 | any user, whatever the enrollments, gets the same lessons |
| LessonUseCase.DeleteLessonValid | backend/internal/app/app.go:106 | deleting a lesson keeps every store invariant, because its progress rows go with it |
| LessonUseCase.UpdateLessonValid | backend/internal/domain/repositories/lesson_repository.go:94-105 | editing a lesson keeps every store invariant, because its course is never rewritten |
| AuthMiddleware.FirstSpace | backend/internal/api/middlewares/auth_middleware.go:29 | finds the first space, with no space before it, or reports that there is none |
| AuthMiddleware.SplitFirstSpace | backend/internal/api/middlewares/auth_middleware.go:29 | one part exactly when there is no space; otherwise two parts that rejoin with a space to the input, the first without spaces |
| AuthMiddleware.Authenticate | backend/internal/api/middlewares/auth_middleware.go:18-50 | an identity is set exactly when the chain continues; every abort is 401; an empty header is "Authorization header is required"; continuing means the header starts with "Bearer " and the rest validated to the identity |
| AuthMiddleware.WellShapedIffBearerPrefix | backend/internal/api/middlewares/auth_middleware.go:29-34 | the shape check passes iff the header starts with "Bearer ", and the token is what follows |
| AuthMiddleware.ShapeExamples | backend/internal/api/middlewares/auth_middleware.go:29-34 | "Bearer" and "bearer x" are refused at the shape check; "Bearer x" continues iff "x" validates |
| AuthMiddleware.RoleGate | backend/internal/api/middlewares/auth_middleware.go:52-73 | continues iff the role is in the list, so an empty list refuses everyone; otherwise 403 "Permission denied" |
| AuthMiddleware.EnrollmentGate | backend/internal/api/middlewares/auth_middleware.go:76-110 | a non-numeric id is 400 whatever the role; continues iff the id parses and the role is admin or teacher or the enrollment exists; 500 exactly for a lookup failure of a non-privileged user; 403 is "not enrolled" |
| AuthMiddleware.BadIdRefusedForAdmin | backend/internal/api/middlewares/auth_middleware.go:80-92 | an admin with course id "abc" gets 400, because parsing precedes the bypass |
| AuthMiddleware.StudentGateIsEnrollment | backend/internal/api/middlewares/auth_middleware.go:94-108 | for a student and a decimal course id, the gate continues iff the enrollment exists, and is 403 otherwise |
| UserUseCase.ValidateCreateUser | backend/internal/dto/user_request.go:5-27 | no errors iff username is present, email is present and well-formed, password has at least 8 characters and role is student, teacher or admin; at most one error per ruled field; a missing username is reported first as "required" |
| UserUseCase.NameAndSurnameOptional | backend/internal/dto/user_request.go:11-14 | name and surname never change the validation outcome |
| UserUseCase.ValidateLogin | backend/internal/dto/user_request.go:31-38 | no errors iff email is present and well-formed and the password has at least 6 characters |
| UserUseCase.RegistrationPasswordPassesLogin | backend/internal/dto/user_request.go:22-37 | credentials valid for registration pass the login rules |
| UserUseCase.CreateUser | backend/internal/domain/usecase/user_usecase.go:32-47 | invalid input gives "validation failed: ..." with the field errors and no write; otherwise it succeeds iff hashing and insert do not fail, name, surname and hashed password are accepted by their VARCHAR columns (only trailing spaces past the width), and username and email are unused; a valid registration whose name or surname is refused by its column is a "too long" error and writes nothing; the user returned carries the input fields with the hashed password and the new id, while the stored row has name and surname cut to at most 52 characters as prefixes of the input; a taken username is the constraint error unchanged |
| UserUseCase.CreateUserValid | backend/internal/domain/services/user_service.go:29-48 | registering keeps every store invariant (fresh id, unique names, default xp and level agree) |
| UserUseCase.Login | backend/internal/domain/usecase/user_usecase.go:65-78 | a user is returned iff there is no error, and on error the token is empty; a lookup failure or unknown email yields that error; success means a user with that email whose stored hash matches, and the token is the signed one |
| UserUseCase.ToUserResponses | backend/internal/domain/usecase/user_usecase.go:91-106 | same length and order, so an empty list gives an empty list; each response's id, username, email, role, level, xp and creation time equal the user's; the response type has no password, name or surname |

## Left out

- `GetProgressByLesson`, `GetProgressByCourse` and
  `GetEnrollmentByUserAndCourse` are one-line forwards, so they have no
  member of their own. `Store.FindProgress`, `Store.ProgressOfCourse` and
  `Store.FindEnrollment` state their contracts.
- Some of the program's forwards map onto a `Store` function and have no
  member of their own:
  - `GetLessonByID` is `Store.FindLesson`;
  - `GetAllLessons` is `Store.LessonsOfCourse`, the same call as
    `LessonUseCase.GetLessonsForStudent`;
  - `DeleteLesson` is `Store.DeleteLesson`;
  - `GetCertificateByUserAndCourse` is `Store.FindCertificate`;
  - `GetUserByID` is `Store.FindUser`;
  - `GetUserByEmail` is `Store.FindUserByEmail`.
- These read-only listings and lookups are not modelled, because no
  decision of the modelled logic depends on them:
  - `GetEnrollmentByID`, `GetStudentEnrollments` and `GetCourseEnrollments`;
  - `GetCertificatesByUserID`;
  - `GetUserByUsername` and `SearchUsers`.
- `DeleteUser` and the whole course use case and course service are not
  modelled. Users and courses are never removed in the model, so their
  cascades are not modelled either.
- The nil-course branch of `EnrollStudent` (enrollment_usecase.go:40-42) is
  unreachable and not modelled. The course repository never returns a nil
  course without an error. A missing course reaches the caller as
  "course not found: ..." with a no-rows cause, as `EnrollmentUseCase.EnrollStudent` states.
- The nil-enrollment branch of `CreateCertificate` (certificate_usecase.go:45-47)
  is unreachable for the same reason. A missing enrollment reaches the caller
  as the repository's "enrollment not found" error.
- CertificateUseCase.CreateCertificate: the use case tests a missing
  certificate with database/sql's `ErrNoRows`, while the repository returns
  pgx's. Whether a missing certificate leads to the insert therefore depends
  on the pgx version. From pgx v5.6.0 on, `pgx.ErrNoRows` wraps
  `sql.ErrNoRows` and the insert is taken; with earlier versions the no-rows
  error would be returned instead. The model takes the insert path, so it
  assumes v5.6.0 or later. Error identity beyond no-rows is not modelled.
- LessonProgressUseCase.Percent: uses exact real arithmetic, so float64
  rounding of `float64(done)/float64(total)*100` is not modelled.
- Level.CalculateLevel: Go's 64-bit `int` arithmetic is not bounded in the
  model. The binding limit is the 32-bit `xp INT` column (app.go:78), about
  2.1·10^8 awards. Past it, `Store.UpdateXpAndLevel` fails, and the error is
  discarded at lesson_progress_usecase.go:85
  (`LessonProgressUseCase.XpFrozenAtColumnLimit`). The model represents the
  column's failure as `OutOfRange`, not pgx's exact encode error.
- The single `nextId` counter stands for the per-table SERIAL sequences. Only
  freshness of ids within a table matters to the logic.
- `time.Now()` values are not generated by the model. They are passed in as
  `now` and only copied and compared. Timestamp columns the logic never
  reads are dropped. The TIMESTAMP column's microsecond precision and loss
  of time zone are not modelled: `CertificateUseCase.CreateCertificateIdempotent`
  returns the first issue time exactly only because `Time` is opaque.
- Foreign keys are not checked on insert. Of the ON DELETE CASCADE rules,
  only lesson → progress rows is modelled, because the invariants rely on it.
  Deleting users and courses is not modelled.
- Concurrency and interleavings are not modelled. Each use case is one
  atomic step of the model.
- External code is passed in as parameters:
  - bcrypt hashing is `hash`;
  - bcrypt comparison is `matches`;
  - JWT validation is `validate`;
  - JWT signing is `sign`;
  - the validator's email format is `isEmail`;
  - PDF rendering is replaced by the `RenderRequest` it would receive.
- UserUseCase.CreateUser: a bcrypt failure, for example on a password over 72
  bytes, is the `PasswordHash` failure site. The byte limit itself is not
  modelled.
- UserUseCase.ValidateCreateUser: counts characters (Unicode scalar values).
  The validator's `min` counts runes, which is the same for well-formed UTF-8.
  `Error.Message` of a validation error is not the validator's exact text;
  only the "validation failed" prefix added by the use case is modelled.
- Database failures are modelled as one `Infra` error. Driver error texts
  other than no-rows, unique violations, over-long strings and out-of-range
  integers are not distinguished. Of the column widths, only those of the
  users table are checked. Every other string column in the modelled tables
  is TEXT.
- The HTTP layer is modelled only as the status and message of each abort:
  - gin context plumbing, JSON bodies and routes are not modelled;
  - the handler that applies the login binding rules is not modelled;
    `UserUseCase.ValidateLogin` states only the rules themselves.

=== FILE: auth_middleware.dfy ===
/** The request gates in front of the handlers: bearer-token
    authentication, the role allow-list, and the enrollment gate. Each
    decides whether the chain continues or is aborted with a status. */
module AuthMiddleware {

  import opened Types
  import opened Models
  import opened Store
  import Strconv
  import EnrollmentService

  datatype Decision = Continue | Abort(status: int, message: string)

  /** What a valid token carries. */
  datatype Claims = Claims(userId: Id, role: string)

  /** The decision, and the identity placed in the request context. */
  datatype AuthOutcome = AuthOutcome(decision: Decision, identity: Option<Claims>)

  const StatusBadRequest: int := 400
  const StatusUnauthorized: int := 401
  const StatusForbidden: int := 403
  const StatusInternalServerError: int := 500

  const BearerPrefix: string := "Bearer "
  const MsgHeaderRequired: string := "Authorization header is required"
  const MsgHeaderFormat: string := "Authorization header format must be Bearer {token}"
  const MsgInvalidToken: string := "Invalid or expired token"
  const MsgPermissionDenied: string := "Permission denied"
  const MsgInvalidCourseId: string := "Invalid course ID"
  const MsgNotEnrolled: string := "Access denied: you are not enrolled in this course"

  /** The position of the first space, if any. */
  function FirstSpace(s: string): (r: Option<nat>)
    ensures r.Some? ==> r.value < |s| && s[r.value] == ' ' && ' ' !in s[..r.value]
    ensures r.None? ==> ' ' !in s
  {
    if |s| == 0 then None
    else if s[0] == ' ' then Some(0)
    else
      match FirstSpace(s[1..])
      case None => None
      case Some(i) =>
        assert s[..i + 1] == [s[0]] + s[1..][..i];
        Some(i + 1)
  }

  /** `strings.SplitN(s, " ", 2)`: the text before the first space and the
      rest, or the whole string when it has no space. */
  function SplitFirstSpace(s: string): (parts: seq<string>)
    ensures 1 <= |parts| <= 2
    ensures |parts| == 1 <==> ' ' !in s
    ensures |parts| == 1 ==> parts[0] == s
    ensures |parts| == 2 ==> s == parts[0] + " " + parts[1] && ' ' !in parts[0]
  {
    match FirstSpace(s)
    case None => [s]
    case Some(i) =>
      assert s == s[..i] + " " + s[i + 1..];
      [s[..i], s[i + 1..]]
  }

  /** The header passes the shape check. */
  predicate WellShaped(header: string) {
    var parts := SplitFirstSpace(header);
    |parts| == 2 && parts[0] == "Bearer"
  }

  /** AuthMiddleware. Token validation is the caller's `validate`. */
  function Authenticate(header: string, validate: string -> Option<Claims>): (o: AuthOutcome)
    ensures o.identity.Some? <==> o.decision.Continue?
    ensures o.decision.Abort? ==> o.decision.status == StatusUnauthorized
    ensures header == "" ==> o.decision == Abort(StatusUnauthorized, MsgHeaderRequired)
    ensures o.decision.Continue? ==>
      HasPrefix(header, BearerPrefix) && validate(header[|BearerPrefix|..]) == o.identity
  {
    if header == "" then AuthOutcome(Abort(StatusUnauthorized, MsgHeaderRequired), None)
    else
      var parts := SplitFirstSpace(header);
      if !(|parts| == 2 && parts[0] == "Bearer") then AuthOutcome(Abort(StatusUnauthorized, MsgHeaderFormat), None)
      else
        assert header[..|BearerPrefix|] == parts[0] + " ";
        assert header[|BearerPrefix|..] == parts[1];
        match validate(parts[1])
        case None => AuthOutcome(Abort(StatusUnauthorized, MsgInvalidToken), None)
        case Some(claims) => AuthOutcome(Continue, Some(claims))
  }

  /** The shape check accepts exactly the headers that start with "Bearer "
      followed by anything, and hands on what follows as the token. */
  lemma {:induction false} WellShapedIffBearerPrefix(header: string)
    ensures WellShaped(header) <==> HasPrefix(header, BearerPrefix)
    ensures WellShaped(header) ==> SplitFirstSpace(header)[1] == header[|BearerPrefix|..]
  {
    var parts := SplitFirstSpace(header);
    if HasPrefix(header, BearerPrefix) {
      assert ' ' !in header[..6];
      assert header[6] == ' ';
      var i := FirstSpace(header);
      assert i == Some(6);
      assert parts == [header[..6], header[7..]];
    }
    if WellShaped(header) {
      assert header == parts[0] + " " + parts[1];
      assert header[..|BearerPrefix|] == BearerPrefix;
    }
  }

  /** The worked examples: a bare "Bearer" and a lower-case scheme are
      refused before any token is validated. */
  lemma ShapeExamples(validate: string -> Option<Claims>)
    ensures Authenticate("Bearer", validate).decision == Abort(StatusUnauthorized, MsgHeaderFormat)
    ensures Authenticate("bearer x", validate).decision == Abort(StatusUnauthorized, MsgHeaderFormat)
    ensures Authenticate("Bearer x", validate).decision.Continue? <==> validate("x").Some?
  {
  }

  /** RoleMiddleware: continue iff the user's role is one of the allowed
      roles; an empty list lets no one through. */
  method RoleGate(userRole: string, roles: seq<string>) returns (d: Decision)
    ensures d.Continue? <==> userRole in roles
    ensures d.Abort? ==> d == Abort(StatusForbidden, MsgPermissionDenied)
  {
    var allowed := false;
    var i := 0;
    while i < |roles|
      invariant 0 <= i <= |roles|
      invariant allowed <==> userRole in roles[..i]
    {
      if userRole == roles[i] {
        allowed := true;
        assert roles[i] in roles[..i + 1];
        break;
      }
      assert roles[..i + 1] == roles[..i] + [roles[i]];
      i := i + 1;
    }
    assert allowed || roles[..i] == roles;
    if !allowed {
      return Abort(StatusForbidden, MsgPermissionDenied);
    }
    return Continue;
  }

  /** EnrollmentMiddleware: parse the course id, let admins and teachers
      through, otherwise require an enrollment. */
  function EnrollmentGate(db: Db, userId: Id, courseParam: string, userRole: string, faults: Faults): (d: Decision)
    ensures Strconv.Atoi(courseParam).None? ==> d == Abort(StatusBadRequest, MsgInvalidCourseId)
    ensures d.Continue? <==>
      && Strconv.Atoi(courseParam).Some?
      && (|| userRole == Admin || userRole == Teacher
          || (EnrollmentLookup !in faults && (userId, Strconv.Atoi(courseParam).value) in db.enrollments))
    ensures d.Abort? && d.status == StatusInternalServerError <==>
      Strconv.Atoi(courseParam).Some? && userRole != Admin && userRole != Teacher && EnrollmentLookup in faults
    ensures d.Abort? && d.status == StatusForbidden ==> d.message == MsgNotEnrolled
  {
    match Strconv.Atoi(courseParam)
    case None => Abort(StatusBadRequest, MsgInvalidCourseId)
    case Some(courseId) =>
      if userRole == Admin || userRole == Teacher then Continue
      else
        match EnrollmentService.IsUserEnrolled(db, userId, courseId, faults)
        case Err(e) => Abort(StatusInternalServerError, e.Message())
        case Ok(enrolled) => if !enrolled then Abort(StatusForbidden, MsgNotEnrolled) else Continue
  }

  /** A course id that is not a number is refused even for an admin, since
      it is parsed before the role bypass. */
  lemma BadIdRefusedForAdmin(db: Db, userId: Id, faults: Faults)
    ensures EnrollmentGate(db, userId, "abc", Admin, faults) == Abort(StatusBadRequest, MsgInvalidCourseId)
  {
  }

  /** For a student, the gate on a course id written in decimal is exactly
      the enrollment table's answer. */
  lemma StudentGateIsEnrollment(db: Db, userId: Id, courseId: Id)
    requires Strconv.MinInt64 <= courseId <= Strconv.MaxInt64
    ensures EnrollmentGate(db, userId, Strconv.Itoa(courseId), Student, {})
         == if (userId, courseId) in db.enrollments then Continue else Abort(StatusForbidden, MsgNotEnrolled)
  {
    Strconv.AtoiItoa(courseId);
  }
}

=== FILE: certificate_usecase.dfy ===
/** Certificate issuance: only for a completed enrollment, at most one per
    (user, course), and an existing certificate is handed back unchanged. */
module CertificateUseCase {

  import opened Types
  import opened Models
  import opened Store

  const ErrNotCompleted: string := "course not completed"

  /** What the PDF renderer is given. */
  datatype RenderRequest = RenderRequest(user: User, course: Course, issuedAt: Time)

  /** The enrollment of (user, course) exists and is completed. */
  predicate CompletedEnrollment(db: Db, userId: Id, courseId: Id) {
    (userId, courseId) in db.enrollments && db.enrollments[(userId, courseId)].status == Completed
  }

  /** CreateCertificate: enrollment, status, existing certificate, insert. */
  function CreateCertificate(db: Db, userId: Id, courseId: Id, now: Time, faults: Faults): (s: Step<Certificate>)
    ensures s.out.Err? ==> s.db == db
    ensures s.out.Ok? ==> CompletedEnrollment(db, userId, courseId)
    ensures s.out.Ok? <==>
      && EnrollmentLookup !in faults && CompletedEnrollment(db, userId, courseId)
      && CertificateLookup !in faults
      && ((userId, courseId) in db.certificates || CertificateInsert !in faults)
    ensures (&& EnrollmentLookup !in faults && (userId, courseId) in db.enrollments
             && db.enrollments[(userId, courseId)].status != Completed) ==>
      s == Step(Err(Failed(ErrNotCompleted)), db)
    ensures s.out.Ok? && (userId, courseId) in db.certificates ==>
      s == Step(Ok(db.certificates[(userId, courseId)]), db)
    ensures s.out.Ok? && (userId, courseId) !in db.certificates ==>
      && s.out.value == Certificate(db.nextId, userId, courseId, now)
      && s.db == db.(certificates := db.certificates[(userId, courseId) := s.out.value], nextId := db.nextId + 1)
    ensures s.out.Err? && EnrollmentLookup !in faults && CompletedEnrollment(db, userId, courseId) ==>
      CertificateLookup in faults || CertificateInsert in faults
  {
    match FindEnrollment(db, userId, courseId, EnrollmentLookup in faults)
    case Err(e) => Step(Err(e), db)
    case Ok(enrollment) =>
      if enrollment.status != Completed then Step(Err(Failed(ErrNotCompleted)), db)
      else
        match FindCertificate(db, userId, courseId, CertificateLookup in faults)
        case Ok(existing) => Step(Ok(existing), db)
        case Err(e) =>
          if !e.IsNoRows() then Step(Err(e), db)
          else
            match InsertCertificate(db, Certificate(0, userId, courseId, now), CertificateInsert in faults)
            case Err(e') => Step(Err(e'), db)
            case Ok(created) => Step(Ok(created.1), created.0)
  }

  /** Asking again returns the same certificate, with the first issue time,
      and writes nothing. */
  lemma CreateCertificateIdempotent(db: Db, userId: Id, courseId: Id, now1: Time, now2: Time, faults: Faults)
    requires CreateCertificate(db, userId, courseId, now1, faults).out.Ok?
    ensures var s1 := CreateCertificate(db, userId, courseId, now1, faults);
      CreateCertificate(s1.db, userId, courseId, now2, faults) == Step(Ok(s1.out.value), s1.db)
  {
  }

  /** Issuing keeps every store invariant, in particular that a certificate
      exists only for a completed enrollment. */
  lemma CreateCertificateValid(db: Db, userId: Id, courseId: Id, now: Time, faults: Faults)
    requires Valid(db)
    ensures Valid(CreateCertificate(db, userId, courseId, now, faults).db)
  {
  }

  /** Generate: issue (or fetch) the certificate, then look up the user and
      the course, and hand the stored issue time to the renderer. */
  function Generate(db: Db, userId: Id, courseId: Id, now: Time, faults: Faults): (s: Step<RenderRequest>)
    ensures s.db == CreateCertificate(db, userId, courseId, now, faults).db
    ensures CreateCertificate(db, userId, courseId, now, faults).out.Err? ==>
      s.out == Err(CreateCertificate(db, userId, courseId, now, faults).out.error)
    ensures s.out.Ok? ==>
      && CreateCertificate(db, userId, courseId, now, faults).out.Ok?
      && userId in db.users && courseId in db.courses
      && s.out.value == RenderRequest(db.users[userId], db.courses[courseId],
                                      CreateCertificate(db, userId, courseId, now, faults).out.value.issuedAt)
    ensures s.out.Ok? && (userId, courseId) in db.certificates ==>
      s.out.value.issuedAt == db.certificates[(userId, courseId)].issuedAt
  {
    var issued := CreateCertificate(db, userId, courseId, now, faults);
    match issued.out
    case Err(e) => Step(Err(e), issued.db)
    case Ok(certificate) =>
      match FindUser(issued.db, userId, UserLookup in faults)
      case Err(e) => Step(Err(e), issued.db)
      case Ok(user) =>
        match FindCourse(issued.db, courseId, CourseLookup in faults)
        case Err(e) => Step(Err(e), issued.db)
        case Ok(course) => Step(Ok(RenderRequest(user, course, certificate.issuedAt)), issued.db)
  }

  /** A failed issuance ends Generate before the user and course lookups:
      whether those would fail makes no difference. */
  lemma GenerateFailsBeforeLookups(db: Db, userId: Id, courseId: Id, now: Time, faults: Faults)
    requires CreateCertificate(db, userId, courseId, now, faults).out.Err?
    ensures Generate(db, userId, courseId, now, faults + {UserLookup, CourseLookup})
         == Generate(db, userId, courseId, now, faults - {UserLookup, CourseLookup})
  {
  }

  /** A certificate issued by Generate stays issued when the later user or
      course lookup fails. */
  lemma GenerateKeepsIssuedCertificate(db: Db, userId: Id, courseId: Id, now: Time, faults: Faults)
    requires CreateCertificate(db, userId, courseId, now, faults).out.Ok?
    requires UserLookup in faults
    ensures var s := Generate(db, userId, courseId, now, faults);
      s.out.Err? && (userId, courseId) in s.db.certificates
  {
  }
}

=== FILE: enrollment_service.dfy ===
/** The enrollment ledger: membership queries and the one-way flip to
    "completed". */
module EnrollmentService {

  import opened Types
  import opened Models
  import opened Store

  /** IsUserEnrolled: "no rows" means not enrolled; any other lookup error is
      passed on. */
  function IsUserEnrolled(db: Db, userId: Id, courseId: Id, faults: Faults): (r: Result<bool>)
    ensures EnrollmentLookup !in faults ==> r == Ok((userId, courseId) in db.enrollments)
    ensures EnrollmentLookup in faults ==> r.Err? && !r.error.IsNoRows()
  {
    match FindEnrollment(db, userId, courseId, EnrollmentLookup in faults)
    case Err(e) => if e.IsNoRows() then Ok(false) else Err(e)
    case Ok(_) => Ok(true)
  }

  /** MarkAsCompleted: looks the enrollment up and writes "completed" into
      its status; a failed lookup changes nothing. */
  function MarkAsCompleted(db: Db, userId: Id, courseId: Id, faults: Faults): (s: Step<()>)
    ensures s.out.Err? ==> s.db == db
    ensures s.db == db.(enrollments := s.db.enrollments)
    ensures s.out.Ok? <==>
      EnrollmentLookup !in faults && EnrollmentUpdate !in faults && (userId, courseId) in db.enrollments
    ensures EnrollmentLookup !in faults && (userId, courseId) !in db.enrollments ==> s.out.Err? && s.out.error.IsNoRows()
    ensures s.out.Ok? ==> s.db.enrollments.Keys == db.enrollments.Keys
    ensures s.out.Ok? ==> s.db.enrollments[(userId, courseId)] == db.enrollments[(userId, courseId)].(status := Completed)
  {
    match FindEnrollment(db, userId, courseId, EnrollmentLookup in faults)
    case Err(e) => Step(Err(e), db)
    case Ok(enrollment) =>
      match UpdateEnrollmentStatus(db, enrollment.id, Completed, EnrollmentUpdate in faults)
      case Ok(db') => Step(Ok(()), db')
      case Err(e) => Step(Err(e), db)
  }

  /** Every other enrollment is untouched, and the status only ever moves
      towards "completed". */
  lemma MarkAsCompletedFrame(db: Db, userId: Id, courseId: Id, faults: Faults)
    requires EnrollmentsValid(db)
    ensures var s := MarkAsCompleted(db, userId, courseId, faults);
      && (forall k :: k in db.enrollments && k != (userId, courseId) ==>
            k in s.db.enrollments && s.db.enrollments[k] == db.enrollments[k])
      && (forall k :: k in db.enrollments && db.enrollments[k].status == Completed ==>
            k in s.db.enrollments && s.db.enrollments[k].status == Completed)
  {
  }

  /** Flipping an already completed enrollment is a successful no-op. */
  lemma MarkAsCompletedIdempotent(db: Db, userId: Id, courseId: Id)
    requires EnrollmentsValid(db)
    requires (userId, courseId) in db.enrollments && db.enrollments[(userId, courseId)].status == Completed
    ensures MarkAsCompleted(db, userId, courseId, {}) == Step(Ok(()), db)
  {
  }

  /** The flip keeps every store invariant. */
  lemma MarkAsCompletedValid(db: Db, userId: Id, courseId: Id, faults: Faults)
    requires Valid(db)
    ensures Valid(MarkAsCompleted(db, userId, courseId, faults).db)
  {
    var s := MarkAsCompleted(db, userId, courseId, faults);
    MarkAsCompletedFrame(db, userId, courseId, faults);
    if s.out.Ok? {
      assert EnrollmentsValid(s.db);
      assert CertificatesValid(s.db);
      assert IdsBelowNext(s.db);
    }
  }
}

=== FILE: enrollment_usecase.dfy ===
/** Enrolling a student: the course must exist, its teacher may not enrol,
    and a second enrollment for the same pair is refused. Also the admin's
    delete of an enrollment by id. */
module EnrollmentUseCase {

  import opened Types
  import opened Models
  import opened Store
  import EnrollmentService

  const ErrOwnCourse: string := "teacher cannot enroll in their own course"
  const ErrAlreadyEnrolled: string := "student already enrolled in this course"

  /** Every check of EnrollStudent passes, in the order it makes them. */
  predicate CanEnroll(db: Db, userId: Id, courseId: Id, faults: Faults) {
    && CourseLookup !in faults && courseId in db.courses
    && db.courses[courseId].teacherId != userId
    && EnrollmentLookup !in faults && (userId, courseId) !in db.enrollments
  }

  /** EnrollStudent: course, teacher, duplicate, then create. */
  function EnrollStudent(db: Db, userId: Id, courseId: Id, faults: Faults): (s: Step<()>)
    ensures s.out.Err? ==> s.db == db
    ensures s.out.Ok? <==> CanEnroll(db, userId, courseId, faults) && EnrollmentInsert !in faults
    ensures s.out.Ok? ==>
      s.db == db.(enrollments := db.enrollments[(userId, courseId) := Enrollment(db.nextId, userId, courseId, Active)],
                  nextId := db.nextId + 1)
    ensures CourseLookup !in faults && courseId !in db.courses ==>
      s.out.Err? && s.out.error.IsNoRows() && HasPrefix(s.out.error.Message(), "course not found")
    ensures CourseLookup !in faults && courseId in db.courses && db.courses[courseId].teacherId == userId ==>
      s == Step(Err(Failed(ErrOwnCourse)), db)
    ensures (&& CourseLookup !in faults && courseId in db.courses && db.courses[courseId].teacherId != userId
             && EnrollmentLookup !in faults && (userId, courseId) in db.enrollments) ==>
      s == Step(Err(Failed(ErrAlreadyEnrolled)), db)
  {
    match FindCourse(db, courseId, CourseLookup in faults)
    case Err(e) => Step(Err(e), db)
    case Ok(course) =>
      if course.teacherId == userId then Step(Err(Failed(ErrOwnCourse)), db)
      else
        match EnrollmentService.IsUserEnrolled(db, userId, courseId, faults)
        case Err(e) => Step(Err(e), db)
        case Ok(enrolled) =>
          if enrolled then Step(Err(Failed(ErrAlreadyEnrolled)), db)
          else
            match InsertEnrollment(db, Enrollment(0, userId, courseId, Active), EnrollmentInsert in faults)
            case Err(e) => Step(Err(e), db)
            case Ok(created) => Step(Ok(()), created.0)
  }

  /** Enrolling keeps every store invariant: the new row has a fresh id and
      status "active", and no certificate can exist for a pair that had no
      enrollment. */
  lemma EnrollStudentValid(db: Db, userId: Id, courseId: Id, faults: Faults)
    requires Valid(db)
    ensures Valid(EnrollStudent(db, userId, courseId, faults).db)
  {
  }

  /** The same student enrolling again is refused and nothing changes. */
  lemma EnrollTwice(db: Db, userId: Id, courseId: Id, faults: Faults)
    requires CourseLookup !in faults && EnrollmentLookup !in faults
    requires EnrollStudent(db, userId, courseId, faults).out.Ok?
    ensures var s1 := EnrollStudent(db, userId, courseId, faults);
      EnrollStudent(s1.db, userId, courseId, faults) == Step(Err(Failed(ErrAlreadyEnrolled)), s1.db)
  {
  }

  /** No teacher holds an enrollment in a course they teach. */
  ghost predicate NoSelfEnrollment(db: Db) {
    forall k :: k in db.enrollments && k.1 in db.courses ==> db.courses[k.1].teacherId != k.0
  }

  /** Enrolling never makes a teacher a student of their own course. */
  lemma EnrollStudentKeepsNoSelfEnrollment(db: Db, userId: Id, courseId: Id, faults: Faults)
    requires NoSelfEnrollment(db)
    ensures NoSelfEnrollment(EnrollStudent(db, userId, courseId, faults).db)
  {
  }

  /** An enrollment only ever arrives as "active"; a completed one stays
      completed through enrolling and through the flip. */
  lemma StatusIsMonotone(db: Db, userId: Id, courseId: Id, u2: Id, c2: Id, faults: Faults)
    requires EnrollmentsValid(db)
    ensures var s := EnrollStudent(db, userId, courseId, faults);
      && (forall k :: k in s.db.enrollments && k !in db.enrollments ==> s.db.enrollments[k].status == Active)
      && (forall k :: k in db.enrollments ==> k in s.db.enrollments && s.db.enrollments[k] == db.enrollments[k])
    ensures var s := EnrollmentService.MarkAsCompleted(db, u2, c2, faults);
      forall k :: k in db.enrollments && db.enrollments[k].status == Completed ==>
        k in s.db.enrollments && s.db.enrollments[k].status == Completed
  {
    EnrollmentService.MarkAsCompletedFrame(db, u2, c2, faults);
  }

  /** DeleteEnrollment: removes the enrollment with that id; an unknown id
      is not an error. */
  function DeleteEnrollment(db: Db, id: Id, faults: Faults): (s: Step<()>)
    ensures s.out.Ok? <==> EnrollmentDelete !in faults
    ensures s.out.Err? ==> s.db == db
    ensures forall k :: k in s.db.enrollments <==>
      k in db.enrollments && (EnrollmentDelete in faults || db.enrollments[k].id != id)
    ensures s.db == db.(enrollments := s.db.enrollments)
  {
    match Store.DeleteEnrollment(db, id, EnrollmentDelete in faults)
    case Err(e) => Step(Err(e), db)
    case Ok(db') => Step(Ok(()), db')
  }

  /** Deleting an enrollment that no certificate rests on keeps every store
      invariant. */
  lemma DeleteEnrollmentValid(db: Db, id: Id, faults: Faults)
    requires Valid(db)
    requires forall k :: k in db.certificates && k in db.enrollments ==> db.enrollments[k].id != id
    ensures Valid(DeleteEnrollment(db, id, faults).db)
  {
  }

  /** The certificates table references only users and courses, so deleting
      a completed enrollment leaves its certificate behind: afterwards a
      certificate exists for a pair without an enrollment. */
  lemma DeleteEnrollmentOrphansCertificate(db: Db, id: Id, faults: Faults)
    requires Valid(db) && EnrollmentDelete !in faults
    requires exists k :: k in db.certificates && k in db.enrollments && db.enrollments[k].id == id
    ensures var s := DeleteEnrollment(db, id, faults);
      s.out.Ok? && !CertificatesValid(s.db)
      && exists k :: k in s.db.certificates && k !in s.db.enrollments
  {
  }
}

=== FILE: lesson_progress_service.dfy ===
/** The lesson-completion store: a find-then-create-or-update primitive that
    does not itself refuse re-completion (that policy sits one layer up). */
module LessonProgressService {

  import opened Types
  import opened Models
  import opened Store

  /** MarkLessonCompleted. A failed lookup is swallowed and read as "no row",
      which leads to the create path. */
  function MarkLessonCompleted(db: Db, userId: Id, lessonId: Id, courseId: Id, now: Time, faults: Faults): (s: Step<()>)
    ensures s.out.Err? ==> s.db == db
    ensures s.db == db.(progress := s.db.progress, nextId := s.db.nextId)
    ensures s.out.Ok? ==> (userId, lessonId) in s.db.progress && s.db.progress[(userId, lessonId)].isCompleted
    ensures s.out.Ok? ==> s.db.progress.Keys == db.progress.Keys + {(userId, lessonId)}
    ensures s.out.Ok? && (userId, lessonId) !in db.progress ==>
      s.db.progress[(userId, lessonId)] == LessonProgress(db.nextId, userId, lessonId, courseId, true, now)
    ensures s.out.Ok? && (userId, lessonId) in db.progress ==>
      s.db.progress[(userId, lessonId)] == db.progress[(userId, lessonId)].(isCompleted := true, completedAt := now)
    ensures (userId, lessonId) !in db.progress && ProgressInsert !in faults ==> s.out.Ok?
    ensures ServiceProgressLookup !in faults && ProgressUpdate !in faults && (userId, lessonId) in db.progress ==> s.out.Ok?
  {
    var found :=
      match FindProgress(db, userId, lessonId, ServiceProgressLookup in faults)
      case Ok(p) => p
      case Err(_) => None;
    if found.None? then
      var row := LessonProgress(0, userId, lessonId, courseId, true, now);
      match InsertProgress(db, row, ProgressInsert in faults)
      case Ok(db') => Step(Ok(()), db')
      case Err(e) => Step(Err(e), db)
    else
      var row := found.value.(isCompleted := true, completedAt := now);
      match UpdateProgress(db, row, ProgressUpdate in faults)
      case Ok(db') => Step(Ok(()), db')
      case Err(e) => Step(Err(e), db)
  }

  /** Rows of every other (user, lesson) pair are left as they were. */
  lemma MarkLessonCompletedFrame(db: Db, userId: Id, lessonId: Id, courseId: Id, now: Time, faults: Faults)
    requires ProgressKeyed(db)
    ensures var s := MarkLessonCompleted(db, userId, lessonId, courseId, now, faults);
      forall k :: k in db.progress && k != (userId, lessonId) ==> k in s.db.progress && s.db.progress[k] == db.progress[k]
  {
  }

  /** The store primitive keeps rows under their own keys with distinct ids. */
  lemma MarkLessonCompletedKeepsKeyed(db: Db, userId: Id, lessonId: Id, courseId: Id, now: Time, faults: Faults)
    requires ProgressKeyed(db) && IdsBelowNext(db)
    ensures var s := MarkLessonCompleted(db, userId, lessonId, courseId, now, faults);
      ProgressKeyed(s.db) && IdsBelowNext(s.db)
  {
  }

  /** With the lookup failing, an existing row is not found, the create path
      is taken and the unique (user, lesson) constraint rejects the insert. */
  lemma LookupErrorTakesCreatePath(db: Db, userId: Id, lessonId: Id, courseId: Id, now: Time, faults: Faults)
    requires ServiceProgressLookup in faults && ProgressInsert !in faults
    requires (userId, lessonId) in db.progress
    ensures MarkLessonCompleted(db, userId, lessonId, courseId, now, faults)
      == Step(Err(Wrapped("failed to create lesson progress", UniqueViolation(UniqueProgress))), db)
  {
  }

  /** With a row present and no failure, completing updates only that row. */
  lemma CompleteExisting(db: Db, userId: Id, lessonId: Id, courseId: Id, now: Time)
    requires ProgressKeyed(db) && (userId, lessonId) in db.progress
    ensures var key := (userId, lessonId);
      MarkLessonCompleted(db, userId, lessonId, courseId, now, {})
        == Step(Ok(()), db.(progress := db.progress[key := db.progress[key].(isCompleted := true, completedAt := now)]))
  {
  }

  /** Marking the same lesson twice leaves one completed row; only the
      completion time differs. */
  lemma MarkTwice(db: Db, userId: Id, lessonId: Id, courseId: Id, now1: Time, now2: Time)
    requires ProgressKeyed(db) && IdsBelowNext(db)
    ensures var s1 := MarkLessonCompleted(db, userId, lessonId, courseId, now1, {});
      var s2 := MarkLessonCompleted(s1.db, userId, lessonId, courseId, now2, {});
      && s2.out.Ok?
      && s2.db.nextId == s1.db.nextId
      && s2.db.progress == s1.db.progress[(userId, lessonId) := s1.db.progress[(userId, lessonId)].(completedAt := now2)]
  {
  }
}

=== FILE: lesson_progress_usecase.dfy ===
/** The completion workflow and the progress calculator: guarded lesson
    completion with the experience award, and the completion percentage of
    a course, which is also where an enrollment is flipped to "completed". */
module LessonProgressUseCase {

  import opened Types
  import opened Models
  import opened Store
  import opened Level
  import LessonProgressService
  import EnrollmentService

  const ErrNotInCourse: string := "lesson does not belong to the course"
  const ErrAlreadyCompleted: string := "lesson is already completed"
  const ErrUserMissing: string := "user not found in lesson_progress"

  /** Whether (user, lesson) already has a completed row. */
  predicate IsCompleted(db: Db, userId: Id, lessonId: Id) {
    (userId, lessonId) in db.progress && db.progress[(userId, lessonId)].isCompleted
  }

  /** Every check of MarkLessonCompleted passes, in the order it makes them:
      the lesson is found, it belongs to the course, the progress lookup
      succeeds, the lesson is not yet completed, the user is found. */
  predicate GuardsPass(db: Db, userId: Id, lessonId: Id, courseId: Id, faults: Faults) {
    && LessonLookup !in faults && lessonId in db.lessons
    && db.lessons[lessonId].courseId == courseId
    && ProgressLookup !in faults
    && !IsCompleted(db, userId, lessonId)
    && UserLookup !in faults && userId in db.users
  }

  /** The user after one lesson award. */
  function Awarded(u: User): (u': User)
    ensures u'.xp == u.xp + XpPerLesson
    ensures u'.level == CalculateLevel(u'.xp)
    ensures u' == u.(xp := u'.xp, level := u'.level)
  {
    var xp := u.xp + XpPerLesson;
    u.(xp := xp, level := CalculateLevel(xp))
  }

  /** The awarded experience and level fit their INT columns, so the
      experience write can store them. */
  predicate AwardFits(u: User) {
    FitsInt(Awarded(u).xp) && FitsInt(Awarded(u).level)
  }

  /** MarkLessonCompleted. The checks come first and write nothing; then the
      experience write, whose error is ignored; then the completion write,
      whose error is the result. */
  function MarkLessonCompleted(db: Db, userId: Id, lessonId: Id, courseId: Id, now: Time, faults: Faults): (s: Step<()>)
    ensures !GuardsPass(db, userId, lessonId, courseId, faults) ==> s.out.Err? && s.db == db
    ensures LessonLookup !in faults && lessonId in db.lessons && db.lessons[lessonId].courseId != courseId ==>
      s == Step(Err(Failed(ErrNotInCourse)), db)
    ensures (&& LessonLookup !in faults && lessonId in db.lessons && db.lessons[lessonId].courseId == courseId
             && ProgressLookup !in faults && IsCompleted(db, userId, lessonId)) ==>
      s == Step(Err(Failed(ErrAlreadyCompleted)), db)
    ensures (&& LessonLookup !in faults && lessonId in db.lessons && db.lessons[lessonId].courseId == courseId
             && ProgressLookup !in faults && !IsCompleted(db, userId, lessonId)
             && (UserLookup in faults || userId !in db.users)) ==>
      s == Step(Err(Failed(ErrUserMissing)), db)
    ensures GuardsPass(db, userId, lessonId, courseId, faults) && db.users[userId].id == userId ==>
      s.db.users == (if XpWrite in faults || !AwardFits(db.users[userId]) then db.users
                     else db.users[userId := Awarded(db.users[userId])])
    ensures s.out.Ok? ==> IsCompleted(s.db, userId, lessonId)
    ensures s.out.Err? ==> s.db.progress == db.progress && s.db.nextId == db.nextId
    ensures s.db == db.(users := s.db.users, progress := s.db.progress, nextId := s.db.nextId)
    ensures faults == {} ==> (s.out.Ok? <==> GuardsPass(db, userId, lessonId, courseId, faults))
  {
    match FindLesson(db, lessonId, LessonLookup in faults)
    case Err(e) => Step(Err(e), db)
    case Ok(lesson) =>
      if lesson.courseId != courseId then Step(Err(Failed(ErrNotInCourse)), db)
      else
        match FindProgress(db, userId, lessonId, ProgressLookup in faults)
        case Err(e) => Step(Err(e), db)
        case Ok(found) =>
          if found.Some? && found.value.isCompleted then Step(Err(Failed(ErrAlreadyCompleted)), db)
          else
            match FindUser(db, userId, UserLookup in faults)
            case Err(_) => Step(Err(Failed(ErrUserMissing)), db)
            case Ok(user) =>
              var awarded := Awarded(user);
              var db1 :=
                match UpdateXpAndLevel(db, awarded, XpWrite in faults)
                case Ok(d) => d
                case Err(_) => db;
              LessonProgressService.MarkLessonCompleted(db1, userId, lessonId, courseId, now, faults)
  }

  /** A successful completion keeps every store invariant, in particular
      that a progress row belongs to a lesson of its course and that the
      stored level is the one derived from the stored experience. */
  lemma MarkLessonCompletedValid(db: Db, userId: Id, lessonId: Id, courseId: Id, now: Time, faults: Faults)
    requires Valid(db)
    ensures Valid(MarkLessonCompleted(db, userId, lessonId, courseId, now, faults).db)
  {
    if GuardsPass(db, userId, lessonId, courseId, faults) {
      var award := XpWrite !in faults && AwardFits(db.users[userId]);
      var db1 := if award then db.(users := db.users[userId := Awarded(db.users[userId])]) else db;
      if award {
        AwardKeepsUsersValid(db, userId);
      }
      assert Valid(db1);
      assert MarkLessonCompleted(db, userId, lessonId, courseId, now, faults)
          == LessonProgressService.MarkLessonCompleted(db1, userId, lessonId, courseId, now, faults);
      ServiceKeepsValid(db1, userId, lessonId, courseId, now, faults);
    }
  }

  /** The award keeps level and experience in step and touches no name. */
  lemma AwardKeepsUsersValid(db: Db, userId: Id)
    requires UsersValid(db) && userId in db.users
    requires Awarded(db.users[userId]).xp <= MaxInt32
    ensures UsersValid(db.(users := db.users[userId := Awarded(db.users[userId])]))
  {
  }

  /** The completion write, for a lesson of the given course, keeps every
      store invariant. */
  lemma ServiceKeepsValid(db: Db, userId: Id, lessonId: Id, courseId: Id, now: Time, faults: Faults)
    requires Valid(db)
    requires lessonId in db.lessons && db.lessons[lessonId].courseId == courseId
    ensures Valid(LessonProgressService.MarkLessonCompleted(db, userId, lessonId, courseId, now, faults).db)
  {
    var s := LessonProgressService.MarkLessonCompleted(db, userId, lessonId, courseId, now, faults);
    LessonProgressService.MarkLessonCompletedKeepsKeyed(db, userId, lessonId, courseId, now, faults);
    LessonProgressService.MarkLessonCompletedFrame(db, userId, lessonId, courseId, now, faults);
    assert ProgressInCourse(s.db) by {
      forall k | k in s.db.progress
        ensures k.1 in s.db.lessons && s.db.lessons[k.1].courseId == s.db.progress[k].courseId
      {
        if k != (userId, lessonId) {
          assert k in db.progress;
        }
      }
    }
  }

  /** Completing the same lesson again is refused and changes nothing, so
      the experience is awarded once. */
  lemma CompleteTwice(db: Db, userId: Id, lessonId: Id, courseId: Id, now1: Time, now2: Time, faults: Faults)
    requires LessonLookup !in faults && ProgressLookup !in faults
    requires MarkLessonCompleted(db, userId, lessonId, courseId, now1, faults).out.Ok?
    ensures var s1 := MarkLessonCompleted(db, userId, lessonId, courseId, now1, faults);
      MarkLessonCompleted(s1.db, userId, lessonId, courseId, now2, faults) == Step(Err(Failed(ErrAlreadyCompleted)), s1.db)
  {
  }

  /** The experience write precedes the completion write and is not undone
      when the completion write fails. */
  lemma XpKeptWhenCompletionWriteFails(db: Db, userId: Id, lessonId: Id, courseId: Id, now: Time, faults: Faults)
    requires UsersValid(db) && GuardsPass(db, userId, lessonId, courseId, faults)
    requires XpWrite !in faults && ProgressInsert in faults && (userId, lessonId) !in db.progress
    requires db.users[userId].xp + XpPerLesson <= MaxInt32
    ensures var s := MarkLessonCompleted(db, userId, lessonId, courseId, now, faults);
      s.out.Err? && s.db.users[userId].xp == db.users[userId].xp + XpPerLesson
  {
  }

  /** An error of the experience write is discarded: the lesson is still
      recorded as completed and the call succeeds. */
  lemma XpWriteErrorIgnored(db: Db, userId: Id, lessonId: Id, courseId: Id, now: Time)
    requires GuardsPass(db, userId, lessonId, courseId, {XpWrite})
    ensures var s := MarkLessonCompleted(db, userId, lessonId, courseId, now, {XpWrite});
      s.out.Ok? && s.db.users == db.users && IsCompleted(s.db, userId, lessonId)
  {
  }

  /** Experience lives in a 32-bit INT column. Once an award would pass its
      maximum, the experience write fails, its error is discarded, and the
      lesson is still completed: experience silently stops growing. */
  lemma XpFrozenAtColumnLimit(db: Db, userId: Id, lessonId: Id, courseId: Id, now: Time)
    requires UsersValid(db) && GuardsPass(db, userId, lessonId, courseId, {})
    requires db.users[userId].xp + XpPerLesson > MaxInt32
    ensures var s := MarkLessonCompleted(db, userId, lessonId, courseId, now, {});
      s.out.Ok? && s.db.users == db.users && IsCompleted(s.db, userId, lessonId)
  {
  }

  // ---------------------------------------------------------------------
  // progress calculation
  // ---------------------------------------------------------------------

  /** The completed rows of (user, course): what the calculator counts. */
  function CompletedRows(db: Db, userId: Id, courseId: Id): set<(Id, Id)> {
    set k | k in db.progress && db.progress[k].userId == userId && db.progress[k].courseId == courseId
                             && db.progress[k].isCompleted
  }

  /** The lessons the course has now that the learner has completed. */
  function CompletedLessons(db: Db, userId: Id, courseId: Id): set<Id> {
    set l | l in LessonIdsOf(db, courseId) && IsCompleted(db, userId, l)
  }

  /** The loop that counts the completed rows of a query result. */
  method CountCompleted(rows: map<(Id, Id), LessonProgress>) returns (n: nat)
    ensures n == |set k | k in rows && rows[k].isCompleted|
  {
    n := 0;
    var todo := rows.Keys;
    while todo != {}
      invariant todo <= rows.Keys
      invariant n == |set k | k in rows && k !in todo && rows[k].isCompleted|
      decreases |todo|
    {
      var k :| k in todo;
      ghost var before := set j | j in rows && j !in todo && rows[j].isCompleted;
      todo := todo - {k};
      ghost var after := set j | j in rows && j !in todo && rows[j].isCompleted;
      if rows[k].isCompleted {
        assert after == before + {k};
        n := n + 1;
      } else {
        assert after == before;
      }
    }
    assert (set k | k in rows && k !in todo && rows[k].isCompleted) == (set k | k in rows && rows[k].isCompleted);
  }

  /** Multiplying by a positive number keeps the sign. */
  lemma PositiveScaleKeepsSign(x: real, t: real)
    requires 0.0 < t
    ensures x * t < 0.0 <==> x < 0.0
    ensures x * t == 0.0 <==> x == 0.0
  {
  }

  /** `float64(done) / float64(total) * 100`, in exact arithmetic. */
  function Percent(done: nat, total: nat): (p: real)
    requires 0 < total
    ensures p * (total as real) == (done as real) * 100.0
    ensures 0.0 <= p
    ensures done <= total ==> p <= 100.0
    ensures p == 100.0 <==> done == total
  {
    var t := total as real;
    var d := done as real;
    var p := d * 100.0 / t;
    assert p * t == d * 100.0;
    assert (p - 100.0) * t == (d - t) * 100.0;
    PositiveScaleKeepsSign(p, t);
    PositiveScaleKeepsSign(p - 100.0, t);
    p
  }

  /** GetCourseProgress. A course without lessons is 0% and nothing is
      written; when every lesson's row is completed the enrollment is marked
      completed and any error of that write is discarded. */
  function GetCourseProgress(db: Db, userId: Id, courseId: Id, faults: Faults): (s: Step<real>)
    ensures s.out.Err? <==> LessonsQuery in faults || (LessonIdsOf(db, courseId) != {} && ProgressQuery in faults)
    ensures s.out.Err? ==> s.db == db
    ensures LessonsQuery !in faults && LessonIdsOf(db, courseId) == {} ==> s == Step(Ok(0.0), db)
    ensures s.out.Ok? && LessonIdsOf(db, courseId) != {} ==>
      s.out.value == Percent(|CompletedRows(db, userId, courseId)|, |LessonIdsOf(db, courseId)|)
    ensures s.db != db ==> s.out.Ok? && |CompletedRows(db, userId, courseId)| == |LessonIdsOf(db, courseId)| > 0
    ensures s.out.Ok? && |CompletedRows(db, userId, courseId)| == |LessonIdsOf(db, courseId)| > 0 ==>
      s.db == EnrollmentService.MarkAsCompleted(db, userId, courseId, faults).db
  {
    match LessonsOfCourse(db, courseId, LessonsQuery in faults)
    case Err(e) => Step(Err(e), db)
    case Ok(lessons) =>
      if |lessons| == 0 then Step(Ok(0.0), db)
      else
        match ProgressOfCourse(db, userId, courseId, ProgressQuery in faults)
        case Err(e) => Step(Err(e), db)
        case Ok(rows) =>
          var done := |set k | k in rows && rows[k].isCompleted|;
          assert (set k | k in rows && rows[k].isCompleted) == CompletedRows(db, userId, courseId);
          assert |lessons| == |LessonIdsOf(db, courseId)|;
          var db1 := if done == |lessons| then EnrollmentService.MarkAsCompleted(db, userId, courseId, faults).db else db;
          Step(Ok(Percent(done, |lessons|)), db1)
  }

  /** Pairs that share their first component are told apart by the second. */
  lemma {:induction false} SecondComponentsCount(a: set<(Id, Id)>, userId: Id)
    requires forall k :: k in a ==> k.0 == userId
    ensures |set k | k in a :: k.1| == |a|
    decreases |a|
  {
    if a != {} {
      var k :| k in a;
      var rest := a - {k};
      SecondComponentsCount(rest, userId);
      assert (set j | j in a :: j.1) == (set j | j in rest :: j.1) + {k.1};
      assert k.1 !in (set j | j in rest :: j.1);
    }
  }

  /** Under the store invariants the completed rows of (user, course) are
      exactly the completed lessons the course has now, so there are never
      more of them than the course has lessons. */
  lemma CompletedRowsAreCompletedLessons(db: Db, userId: Id, courseId: Id)
    requires ProgressValid(db)
    ensures |CompletedRows(db, userId, courseId)| == |CompletedLessons(db, userId, courseId)|
    ensures |CompletedRows(db, userId, courseId)| <= |LessonIdsOf(db, courseId)|
  {
    var rows := CompletedRows(db, userId, courseId);
    var lessons := CompletedLessons(db, userId, courseId);
    SecondComponentsCount(rows, userId);
    assert (set k | k in rows :: k.1) == lessons by {
      forall l | l in lessons ensures l in (set k | k in rows :: k.1) {
        assert (userId, l) in rows;
      }
    }
    assert lessons <= LessonIdsOf(db, courseId);
    SubsetCount(lessons, LessonIdsOf(db, courseId));
  }

  lemma SubsetCount(a: set<Id>, b: set<Id>)
    requires a <= b
    ensures |a| <= |b|
  {
    assert b == a + (b - a);
  }

  /** A subset as large as its superset is the superset. */
  lemma FullSubset(a: set<Id>, b: set<Id>)
    requires a <= b
    ensures |a| == |b| <==> a == b
  {
    assert b == a + (b - a);
    assert |b - a| == |b| - |a|;
  }

  /** The percentage stays within 0..100, and is 100 exactly when the
      course has lessons and the learner has completed all of them. */
  lemma GetCourseProgressBounded(db: Db, userId: Id, courseId: Id, faults: Faults)
    requires Valid(db)
    ensures var s := GetCourseProgress(db, userId, courseId, faults);
      s.out.Ok? ==>
        && 0.0 <= s.out.value <= 100.0
        && (s.out.value == 100.0 <==>
              LessonIdsOf(db, courseId) != {} && CompletedLessons(db, userId, courseId) == LessonIdsOf(db, courseId))
  {
    CompletedRowsAreCompletedLessons(db, userId, courseId);
    FullSubset(CompletedLessons(db, userId, courseId), LessonIdsOf(db, courseId));
  }

  /** The enrollment changes only when the learner has completed every
      lesson the course has; then, with no store failure, it is completed. */
  lemma FlipOnlyWhenAllDone(db: Db, userId: Id, courseId: Id, faults: Faults)
    requires Valid(db)
    ensures var s := GetCourseProgress(db, userId, courseId, faults);
      && (s.db != db ==> LessonIdsOf(db, courseId) != {} && CompletedLessons(db, userId, courseId) == LessonIdsOf(db, courseId))
      && (faults == {} && (userId, courseId) in db.enrollments
          && LessonIdsOf(db, courseId) != {} && CompletedLessons(db, userId, courseId) == LessonIdsOf(db, courseId)
          ==> s.db.enrollments[(userId, courseId)].status == Completed)
  {
    CompletedRowsAreCompletedLessons(db, userId, courseId);
    FullSubset(CompletedLessons(db, userId, courseId), LessonIdsOf(db, courseId));
  }

  /** An error of the flip is discarded: a learner without an enrollment
      who completed every lesson still reads 100% and nothing is written. */
  lemma FlipErrorIgnored(db: Db, userId: Id, courseId: Id)
    requires Valid(db)
    requires (userId, courseId) !in db.enrollments
    requires LessonIdsOf(db, courseId) != {} && CompletedLessons(db, userId, courseId) == LessonIdsOf(db, courseId)
    ensures GetCourseProgress(db, userId, courseId, {}) == Step(Ok(100.0), db)
  {
    CompletedRowsAreCompletedLessons(db, userId, courseId);
    FullSubset(CompletedLessons(db, userId, courseId), LessonIdsOf(db, courseId));
  }

  /** Reading the progress keeps every store invariant. */
  lemma GetCourseProgressValid(db: Db, userId: Id, courseId: Id, faults: Faults)
    requires Valid(db)
    ensures Valid(GetCourseProgress(db, userId, courseId, faults).db)
  {
    EnrollmentService.MarkAsCompletedValid(db, userId, courseId, faults);
  }

  /** Reading again after the flip leaves the enrollment completed. */
  lemma FlipIsStable(db: Db, userId: Id, courseId: Id, faults: Faults)
    requires Valid(db)
    requires (userId, courseId) in db.enrollments && db.enrollments[(userId, courseId)].status == Completed
    ensures var s := GetCourseProgress(db, userId, courseId, faults);
      (userId, courseId) in s.db.enrollments && s.db.enrollments[(userId, courseId)].status == Completed
  {
  }
}

=== FILE: lesson_usecase.dfy ===
/** Lesson authoring: only the course's teacher may add a lesson, and only
    with a title; students see every lesson of a course. */
module LessonUseCase {

  import opened Types
  import opened Models
  import opened Store

  const ErrOwnership: string := "failed to verify course ownership"
  const ErrNotOwner: string := "user is not the owner of this course"
  const ErrEmptyTitle: string := "lesson title cannot be empty"

  datatype CreateLessonInput = CreateLessonInput(
    title: string, content: string, courseId: Id, videoUrl: string, userId: Id)

  /** IsCourseOwnedByTeacher: a failed course lookup is an error; otherwise
      whether the course's teacher is the given user. */
  function IsCourseOwnedByTeacher(db: Db, courseId: Id, teacherId: Id, faults: Faults): (r: Result<bool>)
    ensures r.Ok? <==> CourseLookup !in faults && courseId in db.courses
    ensures r.Ok? ==> (r.value <==> db.courses[courseId].teacherId == teacherId)
    ensures r.Err? ==> HasPrefix(r.error.Message(), "course not found")
  {
    match FindCourse(db, courseId, CourseLookup in faults)
    case Err(e) => Err(e)
    case Ok(course) => Ok(course.teacherId == teacherId)
  }

  /** The user teaches the course, as the store records it. */
  predicate Teaches(db: Db, userId: Id, courseId: Id) {
    courseId in db.courses && db.courses[courseId].teacherId == userId
  }

  /** CreateLesson: ownership first, then the title, then the insert. */
  function CreateLesson(db: Db, input: CreateLessonInput, faults: Faults): (s: Step<Lesson>)
    ensures s.out.Err? ==> s.db == db
    ensures s.out.Ok? <==>
      CourseLookup !in faults && Teaches(db, input.userId, input.courseId) && input.title != "" && LessonInsert !in faults
    ensures CourseLookup in faults || input.courseId !in db.courses ==>
      s.out.Err? && s.out.error.Wrapped? && s.out.error.context == ErrOwnership
    ensures CourseLookup !in faults && input.courseId in db.courses && !Teaches(db, input.userId, input.courseId) ==>
      s == Step(Err(Failed(ErrNotOwner)), db)
    ensures CourseLookup !in faults && Teaches(db, input.userId, input.courseId) && input.title == "" ==>
      s == Step(Err(Failed(ErrEmptyTitle)), db)
    ensures s.out.Ok? ==>
      && s.out.value == Lesson(db.nextId, input.courseId, input.title, input.content, input.videoUrl)
      && s.db == db.(lessons := db.lessons[db.nextId := s.out.value], nextId := db.nextId + 1)
  {
    match IsCourseOwnedByTeacher(db, input.courseId, input.userId, faults)
    case Err(e) => Step(Err(Wrapped(ErrOwnership, e)), db)
    case Ok(isOwner) =>
      if !isOwner then Step(Err(Failed(ErrNotOwner)), db)
      else if input.title == "" then Step(Err(Failed(ErrEmptyTitle)), db)
      else
        var lesson := Lesson(0, input.courseId, input.title, input.content, input.videoUrl);
        match InsertLesson(db, lesson, LessonInsert in faults)
        case Err(e) => Step(Err(e), db)
        case Ok(created) => Step(Ok(created.1), created.0)
  }

  /** The ownership check comes before the title check: a user who does not
      teach the course is told so even when the title is empty too. */
  lemma OwnershipBeforeTitle(db: Db, input: CreateLessonInput, faults: Faults)
    requires CourseLookup !in faults && input.courseId in db.courses
    requires !Teaches(db, input.userId, input.courseId) && input.title == ""
    ensures CreateLesson(db, input, faults).out == Err(Failed(ErrNotOwner))
  {
  }

  /** Adding a lesson keeps every store invariant. */
  lemma CreateLessonValid(db: Db, input: CreateLessonInput, faults: Faults)
    requires Valid(db)
    ensures Valid(CreateLesson(db, input, faults).db)
  {
  }

  /** GetLessonsForStudent: every lesson of the course; the enrollment check
      is commented out in the source, so the student is not consulted. */
  function GetLessonsForStudent(db: Db, userId: Id, courseId: Id, faults: Faults): (r: Result<map<Id, Lesson>>)
    ensures r.Ok? <==> LessonsQuery !in faults
    ensures r.Ok? ==> r.value.Keys == LessonIdsOf(db, courseId)
    ensures r.Ok? ==> forall id :: id in r.value ==> r.value[id] == db.lessons[id]
  {
    LessonsOfCourse(db, courseId, LessonsQuery in faults)
  }

  /** Any user, enrolled or not, gets the same lessons. */
  lemma LessonsIgnoreEnrollment(db: Db, u1: Id, u2: Id, courseId: Id, enrollments: map<(Id, Id), Enrollment>, faults: Faults)
    ensures GetLessonsForStudent(db, u1, courseId, faults)
         == GetLessonsForStudent(db.(enrollments := enrollments), u2, courseId, faults)
  {
  }

  /** Deleting a lesson keeps every store invariant: the cascade takes its
      progress rows along. */
  lemma DeleteLessonValid(db: Db, id: Id, down: bool)
    requires Valid(db)
    ensures DeleteLesson(db, id, down).Ok? ==> Valid(DeleteLesson(db, id, down).value)
  {
  }

  /** Editing a lesson keeps every store invariant: its course is not
      rewritten. */
  lemma UpdateLessonValid(db: Db, lesson: Lesson, down: bool)
    requires Valid(db)
    ensures UpdateLesson(db, lesson, down).Ok? ==> Valid(UpdateLesson(db, lesson, down).value)
  {
  }
}

=== FILE: level.dfy ===
/** The experience rule: a fixed award per completed lesson and the level
    derived from accumulated experience. */
module Level {

  /** Experience awarded for one completed lesson. */
  const XpPerLesson: int := 10

  /** Column defaults of a freshly registered user. */
  const DefaultXp: int := 0
  const DefaultLevel: int := 1

  /** Go's integer `/`, which truncates toward zero (Dafny's rounds down). */
  function TruncDiv(a: int, b: int): (q: int)
    requires b > 0
    ensures a >= 0 ==> q * b <= a < q * b + b
    ensures a < 0 ==> q * b - b < a <= q * b
  {
    if a >= 0 then a / b else -((-a) / b)
  }

  /** calculateLevel: one level per full hundred points, starting at 1. */
  function CalculateLevel(xp: int): (level: int)
    ensures xp >= 0 ==> 1 <= level && (level - 1) * 100 <= xp < level * 100
    ensures xp < 0 ==> level <= 1
  {
    TruncDiv(xp, 100) + 1
  }

  /** More experience never means a lower level. */
  lemma CalculateLevelMonotone(a: int, b: int)
    requires a <= b
    ensures CalculateLevel(a) <= CalculateLevel(b)
  {
  }

  /** The stored defaults agree with the rule, and the worked examples hold. */
  lemma DefaultsAgree()
    ensures CalculateLevel(DefaultXp) == DefaultLevel
    ensures CalculateLevel(250) == 3
    ensures CalculateLevel(99) == 1 && CalculateLevel(100) == 2
  {
  }

  /** One lesson award raises the level by at most one. */
  lemma AwardRaisesLevelByAtMostOne(xp: int)
    requires xp >= 0
    ensures CalculateLevel(xp) <= CalculateLevel(xp + XpPerLesson) <= CalculateLevel(xp) + 1
  {
  }
}

=== FILE: models.dfy ===
/** The records of the domain layer, one per Go model struct. Creation and
    update timestamps are dropped except where the domain logic reads them. */
module Models {

  import opened Types

  /** Enrollment statuses: the column default and the only value ever written. */
  const Active: string := "active"
  const Completed: string := "completed"

  /** The roles a user can register with. */
  const Student: string := "student"
  const Teacher: string := "teacher"
  const Admin: string := "admin"

  datatype User = User(
    id: Id,
    username: string,
    name: string,
    surname: string,
    email: string,
    password: string,
    role: string,
    level: int,
    xp: int,
    createdAt: Time)

  /** The public projection of a user: no password, name or surname. */
  datatype UserResponse = UserResponse(
    id: Id,
    username: string,
    email: string,
    role: string,
    level: int,
    xp: int,
    createdAt: Time)

  datatype Course = Course(id: Id, name: string, description: string, teacherId: Id, status: string)

  datatype Lesson = Lesson(id: Id, courseId: Id, title: string, content: string, videoUrl: string)

  /** One learner's completion record of one lesson; `courseId` is a
      denormalised copy of the lesson's course. */
  datatype LessonProgress = LessonProgress(
    id: Id,
    userId: Id,
    lessonId: Id,
    courseId: Id,
    isCompleted: bool,
    completedAt: Time)

  datatype Enrollment = Enrollment(id: Id, userId: Id, courseId: Id, status: string)

  datatype Certificate = Certificate(id: Id, userId: Id, courseId: Id, issuedAt: Time)
}

=== FILE: store.dfy ===
/** The PostgreSQL schema the domain layer relies on, as immutable maps, and
    the repository calls the domain layer makes on it.

    Tables with a UNIQUE pair constraint are keyed by that pair: a map
    cannot hold two rows under one key, which is what the constraint
    guarantees. Every repository call takes `down`, true when the database
    fails at that call; such a call reports an error and writes nothing. */
module Store {

  import opened Types
  import opened Models
  import Level
  import Strconv

  datatype Db = Db(
    users: map<Id, User>,
    courses: map<Id, Course>,
    lessons: map<Id, Lesson>,
    /** keyed by (user, lesson): uq_lesson_progress_user_lesson */
    progress: map<(Id, Id), LessonProgress>,
    /** keyed by (user, course): uq_enrollment_user_course */
    enrollments: map<(Id, Id), Enrollment>,
    /** keyed by (user, course): uq_certificate_user_course */
    certificates: map<(Id, Id), Certificate>,
    /** the next SERIAL value */
    nextId: Id)

  /** What a store-touching operation returns, together with the store after it. */
  datatype Step<+T> = Step(out: Result<T>, db: Db)

  const UniqueProgress: string := "uq_lesson_progress_user_lesson"
  const UniqueEnrollment: string := "uq_enrollment_user_course"
  const UniqueCertificate: string := "uq_certificate_user_course"
  const UniqueUsername: string := "users_username_key"
  const UniqueEmail: string := "users_email_key"

  /** The range of a PostgreSQL INT column. */
  const MinInt32: int := -0x8000_0000
  const MaxInt32: int := 0x7fff_ffff

  /** VARCHAR widths of the users table. */
  const NameWidth: nat := 52
  const PasswordWidth: nat := 255

  predicate FitsInt(v: int) {
    MinInt32 <= v <= MaxInt32
  }

  /** PostgreSQL accepts a string for a VARCHAR(n) column when it has at
      most n characters, or when every character past the n-th is a space;
      anything else is refused as too long. */
  predicate FitsVarchar(s: string, n: nat) {
    forall i :: n <= i < |s| ==> s[i] == ' '
  }

  /** What a VARCHAR(n) column stores for an accepted string: the excess
      trailing spaces are cut off, and nothing else changes. */
  function StoreVarchar(s: string, n: nat): (r: string)
    requires FitsVarchar(s, n)
    ensures |r| <= n && r <= s
    ensures |s| <= n ==> r == s
    ensures n < |s| ==> |r| == n
    ensures forall i :: |r| <= i < |s| ==> s[i] == ' '
  {
    if |s| <= n then s else s[..n]
  }

  /** `s` without its trailing spaces: the reference for what "too long"
      means for a VARCHAR column. */
  function TrimTrailingSpaces(s: string): (t: string)
    ensures t <= s
    ensures |t| == 0 || t[|t| - 1] != ' '
    ensures forall i :: |t| <= i < |s| ==> s[i] == ' '
  {
    if |s| > 0 && s[|s| - 1] == ' ' then TrimTrailingSpaces(s[..|s| - 1]) else s
  }

  /** A string fits VARCHAR(n) exactly when it has at most n characters
      once its trailing spaces are removed. */
  lemma FitsVarcharIffTrimmedFits(s: string, n: nat)
    ensures FitsVarchar(s, n) <==> |TrimTrailingSpaces(s)| <= n
  {
  }

  /** A stored value fits its column again and is stored unchanged. */
  lemma StoreVarcharStable(s: string, n: nat)
    requires FitsVarchar(s, n)
    ensures FitsVarchar(StoreVarchar(s, n), n)
    ensures StoreVarchar(StoreVarchar(s, n), n) == StoreVarchar(s, n)
  {
  }

  /** A 53-character name made of "a" and 52 spaces is accepted by
      VARCHAR(52) and stored as "a" and 51 spaces; 52 letters followed by
      "b" are refused. */
  lemma TrailingSpacesCut()
    ensures FitsVarchar("a" + seq(52, _ => ' '), NameWidth)
    ensures StoreVarchar("a" + seq(52, _ => ' '), NameWidth) == "a" + seq(51, _ => ' ')
    ensures !FitsVarchar(seq(52, _ => 'a') + "b", NameWidth)
  {
    var s := "a" + seq(52, _ => ' ');
    assert s[..NameWidth] == "a" + seq(51, _ => ' ');
    var u := seq(52, _ => 'a') + "b";
    assert u[52] == 'b';
  }

  /** The user's strings are accepted by their VARCHAR columns. */
  predicate FitsUserColumns(u: User) {
    && FitsVarchar(u.name, NameWidth)
    && FitsVarchar(u.surname, NameWidth)
    && FitsVarchar(u.password, PasswordWidth)
  }

  /** The row the users table stores for an accepted user. */
  function StoredColumns(u: User): (r: User)
    requires FitsUserColumns(u)
    ensures |r.name| <= NameWidth && |r.surname| <= NameWidth && |r.password| <= PasswordWidth
    ensures r.name <= u.name && r.surname <= u.surname && r.password <= u.password
    ensures FitsUserColumns(r)
    ensures r == u.(name := r.name, surname := r.surname, password := r.password)
  {
    u.(name := StoreVarchar(u.name, NameWidth), surname := StoreVarchar(u.surname, NameWidth),
       password := StoreVarchar(u.password, PasswordWidth))
  }

  // ---------------------------------------------------------------------
  // Store invariants: the schema's constraints and defaults, and what the
  // domain layer keeps true on top of them.
  // ---------------------------------------------------------------------

  /** Users: unique username and email; experience is never negative, fits
      its INT column, and the stored level is always the one derived from
      the stored experience. */
  ghost predicate UsersValid(db: Db) {
    && (forall id :: id in db.users ==> db.users[id].id == id)
    && (forall id :: id in db.users ==>
          && 0 <= db.users[id].xp <= MaxInt32
          && db.users[id].level == Level.CalculateLevel(db.users[id].xp))
    && (forall a, b :: a in db.users && b in db.users && db.users[a].username == db.users[b].username ==> a == b)
    && (forall a, b :: a in db.users && b in db.users && db.users[a].email == db.users[b].email ==> a == b)
  }

  ghost predicate CatalogValid(db: Db) {
    && (forall id :: id in db.courses ==> db.courses[id].id == id)
    && (forall id :: id in db.lessons ==> db.lessons[id].id == id)
  }

  /** Progress rows sit under their own (user, lesson) key and have distinct ids. */
  ghost predicate ProgressKeyed(db: Db) {
    && (forall k :: k in db.progress ==> db.progress[k].userId == k.0 && db.progress[k].lessonId == k.1)
    && (forall a, b :: a in db.progress && b in db.progress && db.progress[a].id == db.progress[b].id ==> a == b)
  }

  /** Each progress row belongs to an existing lesson of the course it
      records: the completion workflow checks the lesson's course, lessons
      never change course, and deleting a lesson cascades to its rows. */
  ghost predicate ProgressInCourse(db: Db) {
    forall k :: k in db.progress ==> k.1 in db.lessons && db.lessons[k.1].courseId == db.progress[k].courseId
  }

  ghost predicate ProgressValid(db: Db) {
    ProgressKeyed(db) && ProgressInCourse(db)
  }

  /** Enrollments sit under their own (user, course) key, have distinct ids,
      and are either active or completed. */
  ghost predicate EnrollmentsValid(db: Db) {
    && (forall k :: k in db.enrollments ==> db.enrollments[k].userId == k.0 && db.enrollments[k].courseId == k.1)
    && (forall k :: k in db.enrollments ==>
          db.enrollments[k].status == Active || db.enrollments[k].status == Completed)
    && (forall a, b :: a in db.enrollments && b in db.enrollments && db.enrollments[a].id == db.enrollments[b].id ==> a == b)
  }

  /** A certificate exists only for a completed enrollment. */
  ghost predicate CertificatesValid(db: Db) {
    && (forall k :: k in db.certificates ==> db.certificates[k].userId == k.0 && db.certificates[k].courseId == k.1)
    && (forall k :: k in db.certificates ==> k in db.enrollments && db.enrollments[k].status == Completed)
  }

  /** Every id handed out so far is below the next SERIAL value. */
  ghost predicate IdsBelowNext(db: Db) {
    && (forall id :: id in db.users ==> id < db.nextId)
    && (forall id :: id in db.courses ==> id < db.nextId)
    && (forall id :: id in db.lessons ==> id < db.nextId)
    && (forall k :: k in db.progress ==> db.progress[k].id < db.nextId)
    && (forall k :: k in db.enrollments ==> db.enrollments[k].id < db.nextId)
    && (forall k :: k in db.certificates ==> db.certificates[k].id < db.nextId)
  }

  ghost predicate Valid(db: Db) {
    && UsersValid(db)
    && CatalogValid(db)
    && ProgressValid(db)
    && EnrollmentsValid(db)
    && CertificatesValid(db)
    && IdsBelowNext(db)
  }

  /** The empty database the migrations create. */
  function Empty(): (db: Db)
    ensures Valid(db)
  {
    Db(map[], map[], map[], map[], map[], map[], 1)
  }

  // ---------------------------------------------------------------------
  // lessons and courses
  // ---------------------------------------------------------------------

  function FindLesson(db: Db, id: Id, down: bool): (r: Result<Lesson>)
    ensures r.Ok? <==> !down && id in db.lessons
    ensures r.Ok? ==> r.value == db.lessons[id]
    ensures !down && id !in db.lessons ==> r.Err? && r.error.IsNoRows()
  {
    if down then Err(Wrapped("failed to find lesson by id", Infra))
    else if id !in db.lessons then Err(Wrapped("failed to find lesson by id", NoRows))
    else Ok(db.lessons[id])
  }

  /** The ids of the lessons a course currently has. */
  function LessonIdsOf(db: Db, courseId: Id): set<Id> {
    set id | id in db.lessons && db.lessons[id].courseId == courseId
  }

  /** FindByCourseID: every lesson whose course is `courseId`. */
  function LessonsOfCourse(db: Db, courseId: Id, down: bool): (r: Result<map<Id, Lesson>>)
    ensures r.Ok? <==> !down
    ensures r.Ok? ==> r.value.Keys == LessonIdsOf(db, courseId)
    ensures r.Ok? ==> forall id :: id in r.value ==> r.value[id] == db.lessons[id]
  {
    if down then Err(Wrapped("failed to find lessons by course id", Infra))
    else Ok(map id | id in db.lessons && db.lessons[id].courseId == courseId :: db.lessons[id])
  }

  /** Create: the lesson gets the next id; nothing else changes. */
  function InsertLesson(db: Db, lesson: Lesson, down: bool): (r: Result<(Db, Lesson)>)
    ensures r.Ok? <==> !down
    ensures r.Ok? ==> r.value.1 == lesson.(id := db.nextId)
    ensures r.Ok? ==> r.value.0 == db.(lessons := db.lessons[db.nextId := r.value.1], nextId := db.nextId + 1)
    ensures r.Ok? && IdsBelowNext(db) ==>
      && r.value.1.id !in db.lessons
      && r.value.0.lessons.Keys == db.lessons.Keys + {r.value.1.id}
      && (forall id :: id in db.lessons ==> r.value.0.lessons[id] == db.lessons[id])
  {
    if down then Err(Wrapped("failed to create lesson", Infra))
    else
      var created := lesson.(id := db.nextId);
      Ok((db.(lessons := db.lessons[db.nextId := created], nextId := db.nextId + 1), created))
  }

  /** Delete: removes the lesson; ON DELETE CASCADE removes its progress rows. */
  function DeleteLesson(db: Db, id: Id, down: bool): (r: Result<Db>)
    ensures r.Ok? <==> !down
    ensures r.Ok? ==> id !in r.value.lessons && r.value.lessons == db.lessons - {id}
    ensures r.Ok? ==> forall k :: k in r.value.progress <==> k in db.progress && db.progress[k].lessonId != id
    ensures r.Ok? ==> forall k :: k in r.value.progress ==> r.value.progress[k] == db.progress[k]
    ensures r.Ok? ==> forall i :: i in r.value.lessons ==> r.value.lessons[i] == db.lessons[i]
    ensures r.Ok? ==> r.value == db.(lessons := r.value.lessons, progress := r.value.progress)
  {
    if down then Err(Wrapped("failed to delete lesson", Infra))
    else Ok(db.(lessons := db.lessons - {id},
                progress := map k | k in db.progress && db.progress[k].lessonId != id :: db.progress[k]))
  }

  /** Update: rewrites title, content and video URL of the row with the
      lesson's id; the course column is not written, so a lesson never
      changes course. A missing row is not an error. */
  function UpdateLesson(db: Db, lesson: Lesson, down: bool): (r: Result<Db>)
    ensures r.Ok? <==> !down
    ensures r.Ok? ==> r.value == db.(lessons := r.value.lessons)
    ensures r.Ok? ==> r.value.lessons.Keys == db.lessons.Keys
    ensures r.Ok? ==> forall id :: id in db.lessons ==> r.value.lessons[id].courseId == db.lessons[id].courseId
    ensures r.Ok? && lesson.id in db.lessons ==>
      r.value.lessons[lesson.id] == db.lessons[lesson.id].(title := lesson.title, content := lesson.content,
                                                            videoUrl := lesson.videoUrl)
    ensures r.Ok? ==> forall id :: id in db.lessons && id != lesson.id ==> r.value.lessons[id] == db.lessons[id]
  {
    if down then Err(Wrapped("failed to update lesson", Infra))
    else if lesson.id !in db.lessons then Ok(db)
    else
      var stored := db.lessons[lesson.id];
      Ok(db.(lessons := db.lessons[lesson.id := stored.(title := lesson.title, content := lesson.content,
                                                     videoUrl := lesson.videoUrl)]))
  }

  function FindCourse(db: Db, id: Id, down: bool): (r: Result<Course>)
    ensures r.Ok? <==> !down && id in db.courses
    ensures r.Ok? ==> r.value == db.courses[id]
    ensures r.Err? ==> HasPrefix(r.error.Message(), "course not found")
    ensures !down && id !in db.courses ==> r.Err? && r.error.IsNoRows()
  {
    if down then Err(Wrapped("course not found", Infra))
    else if id !in db.courses then Err(Wrapped("course not found", NoRows))
    else Ok(db.courses[id])
  }

  // ---------------------------------------------------------------------
  // users
  // ---------------------------------------------------------------------

  function FindUser(db: Db, id: Id, down: bool): (r: Result<User>)
    ensures r.Ok? <==> !down && id in db.users
    ensures r.Ok? ==> r.value == db.users[id]
  {
    if down then Err(Infra)
    else if id !in db.users then Err(NoRows)
    else Ok(db.users[id])
  }

  /** FindByEmail selects every column except level and xp, so the user it
      returns carries Go's zero values there. */
  method FindUserByEmail(db: Db, email: string, down: bool) returns (r: Result<User>)
    ensures r.Ok? <==> !down && exists id :: id in db.users && db.users[id].email == email
    ensures r.Ok? ==> r.value.email == email && r.value.level == 0 && r.value.xp == 0
    ensures r.Err? ==> r.error == if down then Infra else NoRows
    ensures r.Ok? ==> exists id :: id in db.users && db.users[id] == r.value.(level := db.users[id].level, xp := db.users[id].xp)
  {
    if down {
      return Err(Infra);
    }
    if !exists id :: id in db.users && db.users[id].email == email {
      return Err(NoRows);
    }
    var id :| id in db.users && db.users[id].email == email;
    r := Ok(db.users[id].(level := 0, xp := 0));
  }

  /** UpdateXpAndLevel: writes xp and level of the row with the user's id;
      a missing row is not an error, a value outside the INT columns is. */
  function UpdateXpAndLevel(db: Db, user: User, down: bool): (r: Result<Db>)
    ensures r.Ok? <==> !down && FitsInt(user.xp) && FitsInt(user.level)
    ensures r.Err? ==> !r.error.IsNoRows()
    ensures r.Ok? && user.id in db.users ==>
      r.value == db.(users := db.users[user.id := db.users[user.id].(xp := user.xp, level := user.level)])
    ensures r.Ok? && user.id !in db.users ==> r.value == db
  {
    if down then Err(Infra)
    else if !FitsInt(user.xp) then Err(OutOfRange("xp"))
    else if !FitsInt(user.level) then Err(OutOfRange("level"))
    else if user.id !in db.users then Ok(db)
    else Ok(db.(users := db.users[user.id := db.users[user.id].(xp := user.xp, level := user.level)]))
  }

  /** Create: name, surname and password must fit their VARCHAR columns,
      username and email are UNIQUE; the stored row has excess trailing
      spaces cut and takes the column defaults for xp, level and
      created_at, while the returned value only gains the new id. */
  function InsertUser(db: Db, user: User, now: Time, down: bool): (r: Result<(Db, User)>)
    ensures r.Ok? <==> (
      && !down
      && FitsUserColumns(user)
      && (forall id :: id in db.users ==> db.users[id].username != user.username)
      && (forall id :: id in db.users ==> db.users[id].email != user.email))
    ensures !down && !FitsUserColumns(user) ==> r.Err? && r.error.TooLong?
    ensures !down && FitsUserColumns(user) && (exists id :: id in db.users && db.users[id].username == user.username) ==>
      r == Err(UniqueViolation(UniqueUsername))
    ensures r.Ok? ==> r.value.1 == user.(id := db.nextId)
    ensures r.Ok? ==> r.value.0 == db.(users := db.users[db.nextId :=
      StoredColumns(user).(id := db.nextId, xp := Level.DefaultXp, level := Level.DefaultLevel, createdAt := now)],
      nextId := db.nextId + 1)
    ensures r.Ok? && IdsBelowNext(db) ==>
      && r.value.1.id !in db.users
      && r.value.0.users.Keys == db.users.Keys + {r.value.1.id}
      && (forall id :: id in db.users ==> r.value.0.users[id] == db.users[id])
  {
    if down then Err(Infra)
    else if !FitsVarchar(user.name, NameWidth) then Err(TooLong("name"))
    else if !FitsVarchar(user.surname, NameWidth) then Err(TooLong("surname"))
    else if !FitsVarchar(user.password, PasswordWidth) then Err(TooLong("password"))
    else if exists id :: id in db.users && db.users[id].username == user.username then
      Err(UniqueViolation(UniqueUsername))
    else if exists id :: id in db.users && db.users[id].email == user.email then
      Err(UniqueViolation(UniqueEmail))
    else
      var stored := StoredColumns(user).(id := db.nextId, xp := Level.DefaultXp, level := Level.DefaultLevel, createdAt := now);
      Ok((db.(users := db.users[db.nextId := stored], nextId := db.nextId + 1), user.(id := db.nextId)))
  }

  // ---------------------------------------------------------------------
  // lesson progress (lesson_progress_repository.go)
  // ---------------------------------------------------------------------

  /** FindByUserAndLesson: a missing row is `nil` with no error. */
  function FindProgress(db: Db, userId: Id, lessonId: Id, down: bool): (r: Result<Option<LessonProgress>>)
    ensures r.Ok? <==> !down
    ensures r.Ok? ==> (r.value.Some? <==> (userId, lessonId) in db.progress)
    ensures r.Ok? && r.value.Some? ==> r.value.value == db.progress[(userId, lessonId)]
  {
    if down then Err(Wrapped("failed to find lesson progress", Infra))
    else if (userId, lessonId) in db.progress then Ok(Some(db.progress[(userId, lessonId)]))
    else Ok(None)
  }

  /** FindByUserAndCourse: the rows whose user and course columns match. */
  function ProgressOfCourse(db: Db, userId: Id, courseId: Id, down: bool): (r: Result<map<(Id, Id), LessonProgress>>)
    ensures r.Ok? <==> !down
    ensures r.Ok? ==> forall k :: k in r.value <==>
      k in db.progress && db.progress[k].userId == userId && db.progress[k].courseId == courseId
    ensures r.Ok? ==> forall k :: k in r.value ==> r.value[k] == db.progress[k]
  {
    if down then Err(Wrapped("failed to find lesson progress by user and course", Infra))
    else Ok(map k | k in db.progress && db.progress[k].userId == userId && db.progress[k].courseId == courseId
                 :: db.progress[k])
  }

  /** Create: rejected by the unique (user, lesson) constraint when a row
      for the pair exists; otherwise the row is stored with the next id. */
  function InsertProgress(db: Db, row: LessonProgress, down: bool): (r: Result<Db>)
    ensures r.Ok? <==> !down && (row.userId, row.lessonId) !in db.progress
    ensures r.Ok? ==> r.value == db.(progress := db.progress[(row.userId, row.lessonId) := row.(id := db.nextId)],
                                     nextId := db.nextId + 1)
    ensures !down && (row.userId, row.lessonId) in db.progress ==>
      r == Err(Wrapped("failed to create lesson progress", UniqueViolation(UniqueProgress)))
    ensures r.Ok? && IdsBelowNext(db) ==>
      && (forall k :: k in db.progress ==> db.progress[k].id != r.value.progress[(row.userId, row.lessonId)].id)
      && r.value.progress.Keys == db.progress.Keys + {(row.userId, row.lessonId)}
      && (forall k :: k in db.progress ==> r.value.progress[k] == db.progress[k])
  {
    if down then Err(Wrapped("failed to create lesson progress", Infra))
    else if (row.userId, row.lessonId) in db.progress then
      Err(Wrapped("failed to create lesson progress", UniqueViolation(UniqueProgress)))
    else
      Ok(db.(progress := db.progress[(row.userId, row.lessonId) := row.(id := db.nextId)], nextId := db.nextId + 1))
  }

  /** The progress table with `is_completed` and `completed_at` of the row
      whose id is `id` overwritten. */
  function SetCompletion(t: map<(Id, Id), LessonProgress>, id: Id, done: bool, at: Time): (t': map<(Id, Id), LessonProgress>)
    ensures t'.Keys == t.Keys
    ensures forall k :: k in t && t[k].id == id ==> t'[k] == t[k].(isCompleted := done, completedAt := at)
    ensures forall k :: k in t && t[k].id != id ==> t'[k] == t[k]
  {
    map k | k in t :: if t[k].id == id then t[k].(isCompleted := done, completedAt := at) else t[k]
  }

  /** Update: `UPDATE ... SET is_completed, completed_at WHERE id = row.id`. */
  function UpdateProgress(db: Db, row: LessonProgress, down: bool): (r: Result<Db>)
    ensures r.Ok? <==> !down
    ensures r.Ok? ==> r.value == db.(progress := SetCompletion(db.progress, row.id, row.isCompleted, row.completedAt))
    ensures r.Ok? ==> r.value.progress.Keys == db.progress.Keys
    ensures r.Ok? ==> forall k :: k in db.progress ==>
      && r.value.progress[k] == db.progress[k].(isCompleted := r.value.progress[k].isCompleted,
                                                completedAt := r.value.progress[k].completedAt)
      && (db.progress[k].id != row.id ==> r.value.progress[k] == db.progress[k])
  {
    if down then Err(Wrapped("failed to update lesson progress", Infra))
    else Ok(db.(progress := SetCompletion(db.progress, row.id, row.isCompleted, row.completedAt)))
  }

  // ---------------------------------------------------------------------
  // enrollments (enrollment_repository.go)
  // ---------------------------------------------------------------------

  /** FindByUserAndCourseID: a missing row is an error wrapping no-rows. */
  function FindEnrollment(db: Db, userId: Id, courseId: Id, down: bool): (r: Result<Enrollment>)
    ensures r.Ok? <==> !down && (userId, courseId) in db.enrollments
    ensures r.Ok? ==> r.value == db.enrollments[(userId, courseId)]
    ensures r.Err? ==> (r.error.IsNoRows() <==> !down)
  {
    if down then Err(Wrapped("error finding enrollment", Infra))
    else if (userId, courseId) !in db.enrollments then Err(Wrapped("enrollment not found", NoRows))
    else Ok(db.enrollments[(userId, courseId)])
  }

  /** Create: only user and course are inserted, so the status is the
      column default 'active' whatever the record says. */
  function InsertEnrollment(db: Db, e: Enrollment, down: bool): (r: Result<(Db, Enrollment)>)
    ensures r.Ok? <==> !down && (e.userId, e.courseId) !in db.enrollments
    ensures r.Ok? ==> r.value.1 == e.(id := db.nextId)
    ensures r.Ok? ==> r.value.0 == db.(enrollments := db.enrollments[(e.userId, e.courseId) :=
      Enrollment(db.nextId, e.userId, e.courseId, Active)], nextId := db.nextId + 1)
    ensures r.Ok? && IdsBelowNext(db) ==>
      && (forall k :: k in db.enrollments ==> db.enrollments[k].id != r.value.1.id)
      && r.value.0.enrollments.Keys == db.enrollments.Keys + {(e.userId, e.courseId)}
      && (forall k :: k in db.enrollments ==> r.value.0.enrollments[k] == db.enrollments[k])
  {
    if down then Err(Wrapped("failed to create enrollment", Infra))
    else if (e.userId, e.courseId) in db.enrollments then
      Err(Wrapped("failed to create enrollment", UniqueViolation(UniqueEnrollment)))
    else
      Ok((db.(enrollments := db.enrollments[(e.userId, e.courseId) := Enrollment(db.nextId, e.userId, e.courseId, Active)],
              nextId := db.nextId + 1),
          e.(id := db.nextId)))
  }

  /** UpdateStatus: rewrites the status of the row with that id; reports an
      error when no row has it. */
  function UpdateEnrollmentStatus(db: Db, id: Id, status: string, down: bool): (r: Result<Db>)
    ensures r.Ok? <==> !down && exists k :: k in db.enrollments && db.enrollments[k].id == id
    ensures r.Ok? ==> r.value.enrollments.Keys == db.enrollments.Keys
    ensures r.Ok? ==> forall k :: k in db.enrollments ==>
      r.value.enrollments[k] == if db.enrollments[k].id == id then db.enrollments[k].(status := status) else db.enrollments[k]
    ensures r.Ok? ==> r.value == db.(enrollments := r.value.enrollments)
  {
    if down then Err(Wrapped("failed to update enrollment status", Infra))
    else if !exists k :: k in db.enrollments && db.enrollments[k].id == id then
      Err(Failed("enrollment with id " + Strconv.Itoa(id) + " not found"))
    else
      Ok(db.(enrollments := map k | k in db.enrollments ::
        if db.enrollments[k].id == id then db.enrollments[k].(status := status) else db.enrollments[k]))
  }

  /** Delete: `DELETE FROM enrollments WHERE id = $1`. No row matching is
      not an error, and no table references enrollments, so nothing else is
      removed. */
  function DeleteEnrollment(db: Db, id: Id, down: bool): (r: Result<Db>)
    ensures r.Ok? <==> !down
    ensures r.Ok? ==> forall k :: k in r.value.enrollments <==> k in db.enrollments && db.enrollments[k].id != id
    ensures r.Ok? ==> forall k :: k in r.value.enrollments ==> r.value.enrollments[k] == db.enrollments[k]
    ensures r.Ok? ==> r.value == db.(enrollments := r.value.enrollments)
  {
    if down then Err(Infra)
    else Ok(db.(enrollments := map k | k in db.enrollments && db.enrollments[k].id != id :: db.enrollments[k]))
  }

  // ---------------------------------------------------------------------
  // certificates (certificate_repository.go)
  // ---------------------------------------------------------------------

  /** GetCertificateByUserAndCourse: a missing row is the bare no-rows error. */
  function FindCertificate(db: Db, userId: Id, courseId: Id, down: bool): (r: Result<Certificate>)
    ensures r.Ok? <==> !down && (userId, courseId) in db.certificates
    ensures r.Ok? ==> r.value == db.certificates[(userId, courseId)]
    ensures r.Err? ==> (r.error.IsNoRows() <==> !down)
  {
    if down then Err(Infra)
    else if (userId, courseId) !in db.certificates then Err(NoRows)
    else Ok(db.certificates[(userId, courseId)])
  }

  /** CreateCertificate: rejected by the unique (user, course) constraint
      when one exists; the error is returned as it is. */
  function InsertCertificate(db: Db, cert: Certificate, down: bool): (r: Result<(Db, Certificate)>)
    ensures r.Ok? <==> !down && (cert.userId, cert.courseId) !in db.certificates
    ensures r.Ok? ==> r.value.1 == cert.(id := db.nextId)
    ensures r.Ok? ==> r.value.0 == db.(certificates := db.certificates[(cert.userId, cert.courseId) := cert.(id := db.nextId)],
                                       nextId := db.nextId + 1)
    ensures r.Ok? && IdsBelowNext(db) ==>
      && (forall k :: k in db.certificates ==> db.certificates[k].id != r.value.1.id)
      && r.value.0.certificates.Keys == db.certificates.Keys + {(cert.userId, cert.courseId)}
      && (forall k :: k in db.certificates ==> r.value.0.certificates[k] == db.certificates[k])
  {
    if down then Err(Infra)
    else if (cert.userId, cert.courseId) in db.certificates then Err(UniqueViolation(UniqueCertificate))
    else
      var created := cert.(id := db.nextId);
      Ok((db.(certificates := db.certificates[(cert.userId, cert.courseId) := created], nextId := db.nextId + 1), created))
  }
}

=== FILE: strconv.dfy ===
/** Decimal integer parsing and formatting as Go's `strconv.Atoi` and
    `strconv.Itoa` do them on a 64-bit platform. */
module Strconv {

  import opened Types

  const MinInt64: int := -0x8000_0000_0000_0000
  const MaxInt64: int := 0x7fff_ffff_ffff_ffff

  predicate IsDigit(ch: char) {
    '0' <= ch <= '9'
  }

  predicate AllDigits(s: string) {
    forall i :: 0 <= i < |s| ==> IsDigit(s[i])
  }

  function DigitChar(d: nat): (ch: char)
    requires d < 10
    ensures IsDigit(ch)
    ensures ch as int - '0' as int == d
  {
    ('0' as int + d) as char
  }

  /** The value of a string of decimal digits, most significant first. */
  function DigitsValue(s: string): nat
    requires AllDigits(s)
    decreases |s|
  {
    if |s| == 0 then 0
    else DigitsValue(s[..|s| - 1]) * 10 + (s[|s| - 1] as int - '0' as int)
  }

  /** The shortest decimal spelling of n. */
  function NatToDigits(n: nat): (s: string)
    ensures 0 < |s| && AllDigits(s)
    decreases n
  {
    if n < 10 then [DigitChar(n)] else NatToDigits(n / 10) + [DigitChar(n % 10)]
  }

  /** strconv.Atoi: an optional sign followed by at least one decimal digit,
      whose value fits the 64-bit `int`; anything else is an error. */
  function Atoi(s: string): (r: Option<int>)
    ensures r.Some? ==> 0 < |s| && MinInt64 <= r.value <= MaxInt64
    ensures r.Some? ==> AllDigits(s) || (1 < |s| && (s[0] == '-' || s[0] == '+') && AllDigits(s[1..]))
    ensures s == "-" || s == "+" ==> r.None?
    ensures |s| == 0 ==> r.None?
    ensures 0 < |s| && AllDigits(s) ==> (r.Some? <==> DigitsValue(s) <= MaxInt64)
    ensures 0 < |s| && AllDigits(s) && r.Some? ==> r.value == DigitsValue(s)
    ensures 1 < |s| && (s[0] == '-' || s[0] == '+') && AllDigits(s[1..]) ==>
      var m: int := DigitsValue(s[1..]);
      var v := if s[0] == '-' then -m else m;
      (r.Some? <==> MinInt64 <= v <= MaxInt64) && (r.Some? ==> r.value == v)
  {
    if |s| == 0 then None
    else
      var negative := s[0] == '-';
      var digits := if s[0] == '-' || s[0] == '+' then s[1..] else s;
      if |digits| == 0 || !AllDigits(digits) then None
      else
        var magnitude: int := DigitsValue(digits);
        var v := if negative then -magnitude else magnitude;
        if MinInt64 <= v <= MaxInt64 then Some(v) else None
  }

  /** strconv.Itoa. */
  function Itoa(n: int): (s: string)
    ensures 0 < |s|
    ensures n < 0 <==> s[0] == '-'
  {
    if n < 0 then "-" + NatToDigits(-n) else NatToDigits(n)
  }

  lemma {:induction false} DigitsRoundTrip(n: nat)
    ensures DigitsValue(NatToDigits(n)) == n
    decreases n
  {
    if n >= 10 {
      var s := NatToDigits(n);
      assert s[..|s| - 1] == NatToDigits(n / 10);
      DigitsRoundTrip(n / 10);
    }
  }

  /** Every 64-bit integer survives formatting and parsing back. */
  lemma AtoiItoa(n: int)
    requires MinInt64 <= n <= MaxInt64
    ensures Atoi(Itoa(n)) == Some(n)
  {
    if n < 0 {
      var d := NatToDigits(-n);
      DigitsRoundTrip(-n);
      var s := "-" + d;
      assert s == Itoa(n);
      assert s[0] == '-' && s[1..] == d;
      assert DigitsValue(s[1..]) == -n;
    } else {
      var d := NatToDigits(n);
      DigitsRoundTrip(n);
      assert d == Itoa(n);
      assert IsDigit(d[0]);
      assert DigitsValue(d) == n;
    }
  }
}

=== FILE: types.dfy ===
/** Shared vocabulary of the backend: identifiers, timestamps, the Go error
    values the domain layer produces, and the result of a store-touching step.
 */
module Types {

  /** Row identifiers (SERIAL columns) and Go `int` parameters. */
  type Id = int

  /** `time.Time` values are opaque: the model only compares and copies them. */
  type Time = int

  datatype Option<+T> = None | Some(value: T)

  /** A go-playground validator field failure: struct field name and the
      first rule tag it failed (`required`, `email`, `min`, `oneof`). */
  datatype FieldError = FieldError(field: string, tag: string)

  /** The error values of the domain layer.
      - NoRows: the driver's "no rows in result set" sentinel;
      - Infra: any failure of the backing database (connection, timeout, ...);
      - UniqueViolation: an insert rejected by a UNIQUE constraint;
      - TooLong: a string longer than its VARCHAR column admits;
      - OutOfRange: an integer outside its 32-bit INT column;
      - Invalid: validator.ValidationErrors;
      - Failed: `errors.New(message)`;
      - Wrapped: `fmt.Errorf("<context>: %w", cause)`. */
  datatype Error =
    | NoRows
    | Infra
    | UniqueViolation(constraint: string)
    | TooLong(column: string)
    | OutOfRange(column: string)
    | Invalid(fields: seq<FieldError>)
    | Failed(message: string)
    | Wrapped(context: string, cause: Error)
  {
    /** `errors.Is(err, ErrNoRows)`: follows the `%w` chain. */
    predicate IsNoRows() {
      match this
      case NoRows => true
      case Wrapped(_, cause) => cause.IsNoRows()
      case _ => false
    }

    /** `err.Error()`; only the prefixes produced by this layer matter. */
    function Message(): string {
      match this
      case NoRows => "no rows in result set"
      case Infra => "database failure"
      case UniqueViolation(c) => "duplicate key value violates unique constraint " + c
      case TooLong(c) => "value too long for column " + c
      case OutOfRange(c) => "integer out of range for column " + c
      case Invalid(_) => "field validation failed"
      case Failed(m) => m
      case Wrapped(ctx, cause) => ctx + ": " + cause.Message()
    }
  }

  /** `(value, error)` pairs: exactly one of the two is meaningful. */
  datatype Result<+T> = Ok(value: T) | Err(error: Error)

  predicate HasPrefix(s: string, p: string) {
    |p| <= |s| && s[..|p|] == p
  }

  /** Call sites at which the database can fail. A use case receives the set
      of failing sites; each store call it makes is told whether it fails. */
  datatype Site =
    | LessonLookup
    | LessonsQuery
    | LessonInsert
    | LessonDelete
    | CourseLookup
    | UserLookup
    | UserInsert
    | PasswordHash
    | XpWrite
    | ProgressLookup
    | ServiceProgressLookup
    | ProgressInsert
    | ProgressUpdate
    | ProgressQuery
    | EnrollmentLookup
    | EnrollmentInsert
    | EnrollmentUpdate
    | EnrollmentDelete
    | CertificateLookup
    | CertificateInsert

  type Faults = set<Site>
}

=== FILE: user_usecase.dfy ===
/** Registration and login: the request rules of the user DTOs, the
    validate-then-delegate registration, the login error path, and the
    public projection of users. */
module UserUseCase {

  import opened Types
  import opened Models
  import opened Store
  import Level

  /** The registration request. Name and surname carry no rule. */
  datatype CreateUserInput = CreateUserInput(
    username: string, name: string, surname: string, email: string, password: string, role: string)

  datatype LoginInput = LoginInput(email: string, password: string)

  const MinPasswordLength: nat := 8
  const MinLoginPasswordLength: nat := 6
  const ValidationFailed: string := "validation failed"

  /** The roles `oneof=student teacher admin` admits. */
  predicate IsRole(role: string) {
    role == Student || role == Teacher || role == Admin
  }

  /** The registration rules, each field on its own. */
  predicate ValidCreateUser(input: CreateUserInput, isEmail: string -> bool) {
    && input.username != ""
    && input.email != "" && isEmail(input.email)
    && |input.password| >= MinPasswordLength
    && IsRole(input.role)
  }

  /** The first failing rule of a `required` field followed by one more
      rule, or nothing. */
  function RequiredThen(field: string, value: string, ok: bool, tag: string): (errs: seq<FieldError>)
    ensures |errs| <= 1
    ensures |errs| == 0 <==> value != "" && ok
    ensures |errs| == 1 ==> errs[0].field == field
    ensures |errs| == 1 && value == "" ==> errs[0].tag == "required"
    ensures |errs| == 1 && value != "" ==> errs[0].tag == tag
  {
    if value == "" then [FieldError(field, "required")]
    else if !ok then [FieldError(field, tag)]
    else []
  }

  /** `validate.Struct(input)` on CreateUserInput: one error per failing
      field, in field order, naming the first rule that field fails. */
  function ValidateCreateUser(input: CreateUserInput, isEmail: string -> bool): (errs: seq<FieldError>)
    ensures |errs| == 0 <==> ValidCreateUser(input, isEmail)
    ensures |errs| <= 4
    ensures forall i :: 0 <= i < |errs| ==> errs[i].field in ["Username", "Email", "Password", "Role"]
    ensures input.username == "" ==> |errs| > 0 && errs[0] == FieldError("Username", "required")
  {
    var username := if input.username == "" then [FieldError("Username", "required")] else [];
    var email := RequiredThen("Email", input.email, isEmail(input.email), "email");
    var password := RequiredThen("Password", input.password, |input.password| >= MinPasswordLength, "min");
    var role := RequiredThen("Role", input.role, IsRole(input.role), "oneof");
    username + email + password + role
  }

  /** Name and surname never decide the outcome of validation. */
  lemma NameAndSurnameOptional(input: CreateUserInput, name: string, surname: string, isEmail: string -> bool)
    ensures ValidateCreateUser(input.(name := name, surname := surname), isEmail) == ValidateCreateUser(input, isEmail)
  {
  }

  /** The login request rules (`required,email` and `required,min=6`). */
  function ValidateLogin(input: LoginInput, isEmail: string -> bool): (errs: seq<FieldError>)
    ensures |errs| == 0 <==> input.email != "" && isEmail(input.email) && |input.password| >= MinLoginPasswordLength
    ensures |errs| <= 2
  {
    RequiredThen("Email", input.email, isEmail(input.email), "email")
      + RequiredThen("Password", input.password, |input.password| >= MinLoginPasswordLength, "min")
  }

  /** A password long enough to register with is long enough to log in with. */
  lemma RegistrationPasswordPassesLogin(input: CreateUserInput, isEmail: string -> bool)
    requires ValidCreateUser(input, isEmail)
    ensures ValidateLogin(LoginInput(input.email, input.password), isEmail) == []
  {
  }

  /** The user the use case hands to the service: the input fields and
      Go zero values elsewhere. */
  function NewUser(input: CreateUserInput): (u: User)
    ensures u.username == input.username && u.name == input.name && u.surname == input.surname
    ensures u.email == input.email && u.password == input.password && u.role == input.role
    ensures u.id == 0 && u.level == 0 && u.xp == 0 && u.createdAt == 0
  {
    User(0, input.username, input.name, input.surname, input.email, input.password, input.role, 0, 0, 0)
  }

  /** CreateUser: validation must pass before the service is called; the
      service hashes the password and inserts, and its error is returned
      as it is. Hashing is the caller's `hash`. */
  function CreateUser(db: Db, input: CreateUserInput, now: Time, hash: string -> string,
                      isEmail: string -> bool, faults: Faults): (s: Step<User>)
    ensures s.out.Err? ==> s.db == db
    ensures !ValidCreateUser(input, isEmail) ==>
      s == Step(Err(Wrapped(ValidationFailed, Invalid(ValidateCreateUser(input, isEmail)))), db)
    ensures !ValidCreateUser(input, isEmail) ==> HasPrefix(s.out.error.Message(), ValidationFailed)
    ensures s.out.Ok? <==>
      && ValidCreateUser(input, isEmail) && PasswordHash !in faults && UserInsert !in faults
      && FitsVarchar(input.name, NameWidth) && FitsVarchar(input.surname, NameWidth)
      && FitsVarchar(hash(input.password), PasswordWidth)
      && (forall id :: id in db.users ==> db.users[id].username != input.username)
      && (forall id :: id in db.users ==> db.users[id].email != input.email)
    ensures s.out.Ok? ==> s.out.value == NewUser(input).(id := db.nextId, password := hash(input.password))
    ensures s.out.Ok? ==>
      s.db == db.(users := db.users[db.nextId := StoredColumns(s.out.value).(xp := Level.DefaultXp,
                                                  level := Level.DefaultLevel, createdAt := now)],
                  nextId := db.nextId + 1)
    ensures s.out.Ok? ==>
      && |s.db.users[db.nextId].name| <= NameWidth && s.db.users[db.nextId].name <= input.name
      && |s.db.users[db.nextId].surname| <= NameWidth && s.db.users[db.nextId].surname <= input.surname
    ensures (&& ValidCreateUser(input, isEmail) && PasswordHash !in faults && UserInsert !in faults
             && (!FitsVarchar(input.name, NameWidth) || !FitsVarchar(input.surname, NameWidth))) ==>
      s.out.Err? && s.out.error.TooLong? && s.db == db
    ensures (&& ValidCreateUser(input, isEmail) && PasswordHash !in faults && UserInsert !in faults
             && FitsUserColumns(NewUser(input).(password := hash(input.password)))
             && (exists id :: id in db.users && db.users[id].username == input.username)) ==>
      s.out == Err(UniqueViolation(UniqueUsername))
  {
    var errs := ValidateCreateUser(input, isEmail);
    if |errs| > 0 then Step(Err(Wrapped(ValidationFailed, Invalid(errs))), db)
    else if PasswordHash in faults then Step(Err(Infra), db)
    else
      var user := NewUser(input).(password := hash(input.password));
      match InsertUser(db, user, now, UserInsert in faults)
      case Err(e) => Step(Err(e), db)
      case Ok(created) => Step(Ok(created.1), created.0)
  }

  /** Registration keeps every store invariant: the new user gets a fresh
      id, unique names and the default experience and level. */
  lemma CreateUserValid(db: Db, input: CreateUserInput, now: Time, hash: string -> string,
                        isEmail: string -> bool, faults: Faults)
    requires Valid(db)
    ensures Valid(CreateUser(db, input, now, hash, isEmail, faults).db)
  {
  }

  /** The outcome of Login: the user and token, or the error. */
  datatype LoginResult = LoginResult(user: Option<User>, token: string, err: Option<Error>)

  /** Login: find the user by email, compare the password against the
      stored hash, sign a token. Any failure yields no user and an empty
      token. Hash comparison and token signing are the caller's. */
  method Login(db: Db, email: string, password: string, matches: (string, string) -> bool,
               sign: (Id, string) -> Result<string>, faults: Faults) returns (r: LoginResult)
    ensures r.err.Some? <==> r.user.None?
    ensures r.err.Some? ==> r.token == ""
    ensures UserLookup in faults ==> r == LoginResult(None, "", Some(Infra))
    ensures UserLookup !in faults && (forall id :: id in db.users ==> db.users[id].email != email) ==>
      r == LoginResult(None, "", Some(NoRows))
    ensures r.user.Some? ==>
      && r.user.value.email == email
      && (exists id :: id in db.users && db.users[id].email == email && db.users[id].id == r.user.value.id
                       && matches(db.users[id].password, password))
      && sign(r.user.value.id, r.user.value.role) == Ok(r.token)
  {
    var found := FindUserByEmail(db, email, UserLookup in faults);
    if found.Err? {
      return LoginResult(None, "", Some(found.error));
    }
    var user := found.value;
    if !matches(user.password, password) {
      return LoginResult(None, "", Some(Failed("crypto/bcrypt: hashedPassword is not the hash of the given password")));
    }
    var token := sign(user.id, user.role);
    if token.Err? {
      return LoginResult(None, "", Some(Wrapped("failed to generate token", token.error)));
    }
    return LoginResult(Some(user), token.value, None);
  }

  /** ToUserResponses: the public projection of each user, in order. */
  method ToUserResponses(users: seq<User>) returns (rs: seq<UserResponse>)
    ensures |rs| == |users|
    ensures forall i :: 0 <= i < |users| ==>
      && rs[i].id == users[i].id && rs[i].username == users[i].username && rs[i].email == users[i].email
      && rs[i].role == users[i].role && rs[i].level == users[i].level && rs[i].xp == users[i].xp
      && rs[i].createdAt == users[i].createdAt
  {
    rs := [];
    var i := 0;
    while i < |users|
      invariant 0 <= i <= |users|
      invariant |rs| == i
      invariant forall j :: 0 <= j < i ==>
        && rs[j].id == users[j].id && rs[j].username == users[j].username && rs[j].email == users[j].email
        && rs[j].role == users[j].role && rs[j].level == users[j].level && rs[j].xp == users[j].xp
        && rs[j].createdAt == users[j].createdAt
    {
      var u := users[i];
      rs := rs + [UserResponse(u.id, u.username, u.email, u.role, u.level, u.xp, u.createdAt)];
      i := i + 1;
    }
  }
}
